=== FILE: README.md ===
# koronawirus backend — a Dafny model of its points core

This project models the points service of the koronawirus backend, a Flask
application that keeps map points (hospitals, transport, ...) in a search
engine index. A *point* carries a name, operator, address, opening hours,
coordinates, category, phone, preparation instruction, owner, waiting time,
document id and last-modified timestamp.

The model covers four pieces of sequential logic:

- **The `Point` entity** (`points.dfy`, module `Points`):
  - construction, where the coordinates become strings and a missing
    timestamp becomes "now";
  - decoding from an engine hit (`from_dict`);
  - the public view (`to_dict`, never `owned_by`) and the privileged view
    (`to_index`, with `owned_by`);
  - the diff-based partial update `modify`. Its intent is a tri-state
    `Field` per attribute: `NotDefined` leaves the attribute alone, and
    `Set(v)` assigns `v`, null included. It returns the changes map of the
    attributes whose value actually differed.
- **Query builders and store protocols**:
  - `queries.dfy` holds `add_to_or_create_list`, the `bool` query of
    `search_points`, the bounding-box corner derivation and the log query.
  - `clock.dfy` holds the monthly log index name and the audit timestamp,
    formatted from a clock reading that is an input.
  - `store.dfy` holds the client's protocols against an abstract engine: a
    map from id to document plus the sequence of audit entries written.
    These are `get_point`, `get_full_point`, `search_points`, `get_points`,
    `get_my_points`, `get_logs`, `modify_point`, `add_point`,
    `delete_point` and `save_log`.
- **Authorization** (`auth.dfy`):
  - the bearer-header parser, with Python's `str.split()` modelled exactly;
  - the user record built from the identity provider's profile;
  - the `check_rights` and `moderator` decisions.
- **Request to intent** (`routes.dfy`):
  - the tri-state intent the `modify_point` route builds;
  - `set_availability`'s validation and single-field intent;
  - `search_points`' defaults;
  - the `modify_point` route as its decorators compose it.

Python values are the `Json` datatype. `Null` is None, and a number carries
the text `str()` gives for it. Python exceptions are the `Error` datatype,
and every fallible operation returns a `Result`. The clock, the engine's
answers (the write status, the id it assigns, the search hits) and the
identity provider's profile are parameters.

Where the code and the intended behaviour disagree, the model follows the
code:

- **Bounding box.** The corners are not normalised. `top_left` is always
  (top_right.lat, bottom_left.lon) and `bottom_right` is (bottom_left.lat,
  top_right.lon), whichever corner is really the larger.
- **`add_point`.** It writes no audit record. When the engine does not
  report `created`, it returns the engine's raw answer rather than failing.
- **Timestamp.** `modify` only reassigns the timestamp to the current clock
  reading. Nothing makes it strictly increase.
- **Log index month.** The month comes from the local `today()`. The audit
  timestamp comes from `utcnow()`. Around midnight at a month boundary the
  two can disagree.
- **Deleting an unknown id.** The engine client raises its not-found error
  (`NotFound` here). It does not reach the "can't delete" branch, which only
  a found document with a status other than `deleted` reaches.
- **Handing a point over.** An owner who is not a moderator can reassign
  `owned_by` through `modify_point`. The route passes the key through and
  `check_rights` only checks the current owner (`Routes.OwnerCanReassignOwner`).
- **No-op updates.** `modify_point` appends an audit entry with empty
  changes whenever the engine reports `updated`, even if nothing changed
  (`Store.NoOpUpdateStillLogged`).
- **Null timestamps.** A stored document whose `last_modified_timestamp` is
  null is re-stamped with "now" when decoded, because decoding runs the
  constructor.

## Model

| member | source | states |
|---|---|---|
| Points.Make | koronawirus_backend/elastic.py:10-25 | every constructed point has string coordinates (the str() of the arguments) and a timestamp; a supplied timestamp is kept, a None one becomes now; all other attributes are the arguments |
| Points.NewPoint | koronawirus_backend/elastic.py:28-32 | a new point is owned by the creating user, has no id, and is stamped now |
| Points.ToDict | koronawirus_backend/elastic.py:44-62 | the public view has exactly the ten public keys, plus `id` exactly when with_id is true, and never `owned_by` |
| Points.ToIndex | koronawirus_backend/elastic.py:64-67 | the privileged view is the public view plus `owned_by`, agreeing with it on every public key |
| Points.FromDict | koronawirus_backend/elastic.py:35-42 | decoding succeeds exactly on hits that carry every key it reads, fails with KeyError/TypeError otherwise, and on success is the constructor applied to the stored fields and the hit's `_id` |
| Points.DecodeIndexed | koronawirus_backend/elastic.py:35-67 | decoding a hit of the privileged view re-runs the constructor on the point's own attributes, undoing the `type`/`point_type` and `location`/`lat`,`lon` renames |
| Points.RoundTrip | koronawirus_backend/elastic.py:35-67 | from_dict of {`_id`: id, `_source`: to_index()} gives back the point with doc_id = id |
| Points.ModifyEach | koronawirus_backend/elastic.py:71-79 | the loop over the parameters assigns every attribute not NotDefined and records exactly the listed attributes whose value differed, with the old and new value |
| Points.Modify | koronawirus_backend/elastic.py:69-81 | every attribute ends with the intent's value when set and its own otherwise; the id is untouched; the timestamp is reassigned to now; the changes keys are exactly the attributes set to a different value |
| Points.ModifyTwiceRecordsNothing | koronawirus_backend/elastic.py:74-79 | applying the same intent again records no change |
| Points.NoOpModify | koronawirus_backend/elastic.py:74-79 | an intent that only sets current values records nothing |
| Points.NoOpModifyStamps | koronawirus_backend/elastic.py:74-80 | such an intent leaves every attribute as it was, yet the timestamp is still reassigned |
| Points.ModifyKeepsValid | koronawirus_backend/elastic.py:69-81 | a modified point keeps string coordinates when the intent's coordinates are absent or strings |
| Points.OnlyChanges | koronawirus_backend/elastic.py:74-79 | an intent that sets one attribute records that attribute exactly when its value differs, and nothing else |
| Points.SingleAttributeChange | koronawirus_backend/elastic.py:74-79 | a one-attribute intent yields the single entry {attr: (old, new)} or an empty map |
| Points.RenameRecordsOnlyName | tests/test_elastic.py:41-46 | renaming the fixture's point 'Góry Wałbrzyskie, masyw Chełmca' to 'changed name' records just the `name` entry with that old and new value |
| Points.MoveLatitude | tests/test_elastic.py:49-54 | changing only the latitude from "50.763923" to "49" records just the `lat` entry |
| Points.KeysDistinct | koronawirus_backend/elastic.py:77-78 | every changes-map key names its attribute back, so no two attributes share a key |
| Points.ChangesJson | koronawirus_backend/elastic.py:77-78 | the logged changes document maps each changed attribute's name to {old_value, new_value} |
| Queries.AddToOrCreateList | koronawirus_backend/elastic.py:84-89 | the list under `name` gains `query` at its end, created empty when absent; earlier elements and other keys are unchanged; a non-list fails with AttributeError |
| Queries.Corners | koronawirus_backend/elastic.py:117-131 | top_left is (top_right.lat, bottom_left.lon) and bottom_right is (bottom_left.lat, top_right.lon), as strings; it succeeds exactly when both corners carry lat and lon |
| Queries.CornersSwap | koronawirus_backend/elastic.py:117-131 | the corners are taken as given: swapping top_right and bottom_left swaps the two corners of the box |
| Queries.CornersExample | koronawirus_backend/elastic.py:178-185 | corners (10, 20) and (5, 15) give the box (10, 15) to (5, 20) |
| Queries.SearchClause | koronawirus_backend/elastic.py:97-132 | `must` is the single multi_match; a `filter` list exists exactly when a category or both corners are given, holding the category term first and the geo box second; only the corner lookups fail |
| Queries.BoolClause | koronawirus_backend/elastic.py:98-113 | the clause read back from a `{"query": {"bool": ...}}` body rebuilds that body |
| Queries.BoolClauseOfQuery | koronawirus_backend/elastic.py:98-113 | reading a built bool query gives back its clause |
| Queries.TermValue | koronawirus_backend/elastic.py:213-216 | a `term` query is read for `field` only when it names `field` or `field.keyword` |
| Queries.TermForms | koronawirus_backend/elastic.py:234 | the long form `{f: {"value": v}}`, the `.keyword` sub-field and the short form `{f: v}` (for a non-object `v`) all select on `v` |
| Queries.SatisfiesTerm | koronawirus_backend/elastic.py:213-216 | a document a term query selects holds the field, and a query that is no term on that field selects nothing by it |
| Queries.OwnerFilterSelectsOwned | koronawirus_backend/elastic.py:209-220 | get_my_points' body is a bool query with only a filter, which selects exactly the documents whose `owned_by` is the sub |
| Queries.LogsQuery | koronawirus_backend/elastic.py:231-234 | the log query sorts by timestamp descending and pages by offset and size; with a point id, its term selects exactly the documents whose `doc_id` is that id, and without one there is no query |
| Queries.DefaultLogsPage | koronawirus_backend/elastic.py:231-232 | with its defaults, get_logs asks for the newest 25 records of every point |
| Clock.ValueOfDigits | koronawirus_backend/elastic.py:264 | zero-padding a number that fits the width reads back as that number |
| Clock.LogIndexName | koronawirus_backend/elastic.py:264 | the log index is the point index, `_`, the two-digit month and `_`, the four-digit year of the local date |
| Clock.LogIndexSeparatesMonths | koronawirus_backend/elastic.py:264 | readings in different months or years log to different indices |
| Clock.LogIndicesFound | koronawirus_backend/elastic.py:235 | every log index save_log writes matches the pattern get_logs searches, and none is the point index itself |
| Clock.DatePart | koronawirus_backend/elastic.py:263 | `%Y/%m/%d`: four-digit year, two-digit month and day, each readable back, separated by slashes |
| Clock.TimePart | koronawirus_backend/elastic.py:263 | `%H:%M:%S`: two-digit hour, minute and second, each readable back, separated by colons |
| Clock.LogTimestamp | koronawirus_backend/elastic.py:263 | the audit timestamp is the year/month/day and hour:minute:second of the UTC reading, 19 characters |
| Store.GetPoint | koronawirus_backend/elastic.py:198-201 | exactly the public keys plus the id, never `owned_by`; NotFound for an unknown id |
| Store.StoredPointRead | koronawirus_backend/elastic.py:198-201 | for a stored constructed point, get_point answers that point's public view with the requested id |
| Store.GetFullPoint | koronawirus_backend/elastic.py:226-229 | exactly the public keys plus the id and `owned_by`, the latter the stored document's; NotFound for an unknown id |
| Store.StoredFullPointRead | koronawirus_backend/elastic.py:226-229 | for a stored constructed point, get_full_point answers that point's privileged view with the requested id |
| Store.PublicViews | koronawirus_backend/elastic.py:134-135 | every hit decodes, or the list fails; the views are the hits' public views, in order, each with the hit's `_id` as id and no `owned_by` |
| Store.PointsReply | koronawirus_backend/elastic.py:136 | the reply is `{"points": [...]}` with one element per view, in order |
| Store.ReplyListsHits | koronawirus_backend/elastic.py:134-136 | the reply built from the hits lists, per hit in order, its decoded point's public view with the hit's id and without `owned_by` |
| Store.SearchPoints | koronawirus_backend/elastic.py:97-136 | the body sent reads back as a bool query whose `must` is the text match and whose `filter` is the expected category term and box, present exactly when one is given; the reply lists the hits |
| Store.GetPoints | koronawirus_backend/elastic.py:167-196 | the box filtered on has top-left (top_right.lat, bottom_left.lon) and bottom-right (bottom_left.lat, top_right.lon); the reply lists the hits |
| Store.GetMyPoints | koronawirus_backend/elastic.py:209-224 | the body is a bool query whose only filter selects exactly the documents owned by the sub; the reply lists the hits |
| Store.AddedPointIsMine | koronawirus_backend/elastic.py:209-224 | a point added by a user carries them as `owned_by`, so their get_my_points filter selects it |
| Store.GetLogs | koronawirus_backend/elastic.py:231-236 | get_logs searches every monthly log index with the log query, answers `{"logs": hits.hits, "total": hits.total.value}`, and fails exactly when the answer lacks one of them |
| Store.LogsQueryFindsPointRecords | koronawirus_backend/elastic.py:231-234 | the log query for a point selects exactly the audit documents whose record names that point, and sorts on the timestamp field the record fills |
| Store.ModificationLogFound | koronawirus_backend/elastic.py:231-264 | the entry an `updated` modification writes goes to an index get_logs searches, is selected by get_logs for that point, and carries the UTC timestamp |
| Store.SaveLog | koronawirus_backend/elastic.py:261-264 | exactly one entry is appended, to the month's log index, holding the actor, the point id, the changes, the UTC timestamp and the name; points are untouched |
| Store.ModifyPoint | koronawirus_backend/elastic.py:238-249 | the modified point's privileged view is written back unconditionally; one audit entry with exactly modify's changes is appended iff the engine reports `updated`; otherwise none is appended and the raw answer is returned; NotFound for an unknown id |
| Store.ModifyPointKeepsIds | koronawirus_backend/elastic.py:240-245 | modify_point neither adds nor removes a stored point |
| Store.ModifyPointReturnsWrittenPoint | koronawirus_backend/elastic.py:245-248 | after an `updated` write the returned view is the modified point's privileged view with its id |
| Store.AddPoint | koronawirus_backend/elastic.py:251-259 | the new point, owned by the user, is indexed as its privileged view under the engine's id and nothing else changes; no audit entry; on `created` the reply is that point's public view with the engine's id, otherwise the raw answer |
| Store.DeletePoint | koronawirus_backend/elastic.py:203-207 | deleting succeeds exactly for a stored id whose delete the engine reports `deleted`, removes only that document and writes no audit entry; another status gives "Can't delete point", an unknown id NotFound |
| Store.DeleteTwiceFails | koronawirus_backend/elastic.py:203-207 | deleting is not idempotent: the second delete of an id fails |
| Store.NoOpUpdateStillLogged | koronawirus_backend/elastic.py:238-247 | an intent that changes nothing still appends an audit entry, with empty changes, when the engine reports `updated` |
| Auth.Split | koronawirus_backend/auth.py:25 | str.split() yields non-empty parts free of whitespace, and none exactly when the header is whitespace only |
| Auth.SplitJoin | koronawirus_backend/auth.py:25 | splitting words joined by single spaces gives back the words |
| Auth.TokenFromHeaderAsWritten | koronawirus_backend/auth.py:16-42 | a missing or empty header is refused as missing, and a header of whitespace only raises IndexError |
| Auth.TokenFromHeader | koronawirus_backend/auth.py:16-42 | every failure is a 401; a token is returned exactly for two parts the first of which is "bearer" in any case, and it is the second part; it agrees with the source on every header that is not whitespace only |
| Auth.MissingHeader | koronawirus_backend/auth.py:19-23 | no header and an empty header both give authorization_header_missing |
| Auth.NoBearerFirst | koronawirus_backend/auth.py:27-31 | a first word other than "bearer" is refused for its scheme, whatever follows |
| Auth.BasicAloneRefused | koronawirus_backend/auth.py:25-34 | "Basic" alone gets "must start with Bearer", not "Token not found" |
| Auth.BasicWithPartsRefused | koronawirus_backend/auth.py:25-34 | "Basic a b" gets "must start with Bearer", not "must be Bearer token": the scheme is checked before the number of parts |
| Auth.BareBearer | koronawirus_backend/auth.py:32-34 | a lone "bearer" in any case gets "Token not found" |
| Auth.BearerWithExtraParts | koronawirus_backend/auth.py:35-39 | more than two parts behind "bearer" get "must be Bearer token" |
| Auth.TooManyParts | koronawirus_backend/auth.py:35-39 | "bearer", a token and one more word get "must be Bearer token" |
| Auth.BearerTokenAccepted | koronawirus_backend/auth.py:41-42 | "Bearer", any whitespace and a token yield the token |
| Auth.WhitespaceHeaderCrashes | koronawirus_backend/auth.py:19-27 | a header holding one no-break space makes the source raise IndexError, where the corrected parser answers "header missing" |
| Auth.UserFromProfile | koronawirus_backend/auth.py:49-54 | the user record carries the profile's sub, and a role key exactly when the application metadata is truthy |
| Auth.CheckRights | koronawirus_backend/auth.py:62-72 | a moderator passes with no lookup; anyone else passes exactly when the stored point's owner is the user's sub, and fails with "Not allowed" or the lookup's error otherwise |
| Auth.Moderator | koronawirus_backend/auth.py:77-82 | passes exactly users whose role is "moderator"; a user without a role key fails on the lookup |
| Auth.ModeratorPassesCheckRights | koronawirus_backend/auth.py:65-82 | whoever passes `moderator` passes `check_rights` on any request |
| Auth.NoMetadataNoRole | koronawirus_backend/auth.py:52-82 | a profile without truthy metadata yields a user with no role key: `moderator` refuses it on the lookup, and `check_rights` admits it only as the owner |
| Routes.ModifyRequest | koronawirus_backend/points.py:70-87 | id is required; an absent key gives NotDefined, a present key gives its value, explicit null included; `type` feeds point_type; present coordinates are passed as str() |
| Routes.ExplicitNullIsSet | koronawirus_backend/points.py:74-86 | `"phone": null` sets the phone to None, while an absent phone stays NotDefined; a numeric lat is passed as its text |
| Routes.RouteKeepsCoordinatesText | koronawirus_backend/points.py:77-80 | a point modified through the route keeps string coordinates |
| Routes.SetAvailability | koronawirus_backend/points.py:90-107 | the availability is read and validated first, and any value but short/moderate/long aborts with 500; the intent sets only waiting_time, as "anonymous" |
| Routes.HandleSetAvailability | koronawirus_backend/points.py:90-107 | an invalid request fails before the store is touched; a valid one is modify_point with the single-field intent |
| Routes.SingleAttributeLogged | koronawirus_backend/points.py:97-107 | an `updated` single-field modification logs one entry by its actor, recording at most that field |
| Routes.AvailabilityTouchesOnlyWaitingTime | koronawirus_backend/points.py:97-107 | an availability report keeps the set of stored points and logs at most the waiting time, as "anonymous" |
| Routes.UnknownAvailabilityAborts | koronawirus_backend/points.py:93-95 | "forever" aborts with 500 |
| Routes.SearchRequest | koronawirus_backend/points.py:110-119 | phrase is required; point_type, top_right and bottom_left are the request's values when present and None when absent |
| Routes.PhraseOnlySearchHasNoFilter | koronawirus_backend/points.py:113-119 | a search with only a phrase sends the text match with no filter list |
| Routes.ModifyRoute | koronawirus_backend/points.py:67-87 | the route succeeds only for a moderator or the point's owner, and keeps the set of stored points; once check_rights passes, it is modify_point with the request's intent under the user's sub |
| Routes.OwnerCanModify | koronawirus_backend/points.py:67-87 | the owner of a stored, readable point gets through the route |
| Routes.AdderMayModify | koronawirus_backend/points.py:45-73 | whoever adds a point passes check_rights on it afterwards |
| Routes.OwnerCanReassignOwner | koronawirus_backend/points.py:67-87 | an owner who is not a moderator can set `owned_by` to anyone |
| Routes.StrangersCannotModify | koronawirus_backend/points.py:67-73 | a user who is neither a moderator nor the owner gets an error and the store is not written |

## Left out

- `get_nearest` (koronawirus_backend/elastic.py:138-165): it rests on float coordinates and the engine's geo-distance sorting.
- The string body of `get_points`: only its corner derivation is modelled. The raw text template and its `size` cap are left out.
- The engine: the meaning of a `term` query is modelled as a predicate over documents (`Queries.SatisfiesTerm`), and the geo, text and sort clauses as the bodies sent. The hits the engine returns for a body, their scores, and the id and status `es.index` reports are inputs. A write always lands. Engine transport errors are not modelled.
- Queries.SatisfiesTerm: it assumes a term on `f` or `f.keyword` selects exactly the documents whose `f` equals the value. That holds for keyword-mapped fields, so `owned_by` in the points index is assumed keyword-mapped; analysed text fields and the index mapping are not modelled.
- The status of `save_log`'s own write is not modelled: the source ignores it, and the model always appends the entry.
- The identity provider call of `requires_auth` (`Users.userinfo`) and its redirect on failure: the profile is an input to `Auth.UserFromProfile`. The corrected header parser is not wired into a model of `requires_auth`.
- Flask routing, `current_app` configuration, per-request client construction, `request.json` parsing, and the argument extraction of the `add_point`, `get_point`, `get_points`, `delete_point` and `get_my_points` routes.
- The `water` and `fire` parameters of `search_points`: the source never uses them.
- The lost update between `modify_point`'s read and write under concurrent requests: the model is sequential.
- Python's numeric equality (the `!=` of koronawirus_backend/elastic.py:76): a number is held as its str() text and `Json` values compare structurally, so numbers compare by their text. Three cases differ. Across types, `1 == 1.0 == True` in Python, so Python records no change, while the model records a change from `1` to `1.0`. For zero, `0.0 == -0.0` in Python, so Python records nothing, while the model records a change. For NaN, which the request parser accepts as a literal, `nan != nan` in Python, so Python records a NaN intent as a change on every call, while the model's `Num("nan")` equals itself and records it once.
- Points.ModifyTwiceRecordsNothing: holds for the model's text equality. With a NaN value, Python's `modify` records the change again on the second call.
- Points.NoOpModify: holds for the model's text equality. Setting a NaN attribute to NaN records a change in Python, and setting `0.0` to `-0.0` records none, while the model records one.
- Store.Store: documents are keyed by the JSON value of the id, not by its text. The engine client puts `str(id)` into the URL path (`true`/`false` for booleans) and refuses `None` and `""`. So `{"id": 5}` reaches document `"5"` in the program, while `GetPoint`, `GetFullPoint`, `CheckRights`, `ModifyPoint` and `DeletePoint` answer NotFound for it in the model, and the model looks up a null or empty id like any other key instead of refusing it. Only string ids other than `""` are modelled as the program treats them.
- Values.PyStr: str() of a list or dict is not modelled (it gives the empty text). The coordinates and corners are exact only for scalar values.
- Auth.IsBearer: it lower-cases ASCII letters only. Python's `lower()` maps no other character onto a letter of "bearer", so the comparison agrees.
- The clock: `utcnow()`, `today()` and the platform-dependent `%s` epoch format are inputs (`Clock.Reading`).
- Years before 1000: glibc's `%Y` does not zero-pad them, so `Clock.Year` admits only four-digit years and the shorter formats are not modelled.
- The status `es.delete` reports is an input to `Store.DeletePoint`: the engine answers `deleted` for every found document, but the client checks it, so both branches are modelled.
- setup.py (packaging) and tests/test_elastic.py as a target. The tests use a different package and different fields; only their two diff expectations are modelled.

## Findings

| source | as written | input that shows it | evidently intended | confidence | as-written member | corrected member |
|---|---|---|---|---|---|---|
| koronawirus_backend/auth.py:19-27 | `if not auth` only rejects a missing or empty header. A header of whitespace only passes, `auth.split()` returns `[]`, and `parts[0]` raises IndexError, a 500 instead of a 401. | an `Authorization` header holding the single byte 0xA0 (no-break space; HTTP's own whitespace stripping keeps it) | the 401 `authorization_header_missing` error | not executed; high (follows from Python's documented `str.split()`) | Auth.TokenFromHeaderAsWritten | Auth.TokenFromHeader |

=== FILE: auth.dfy ===
/** The request checks of koronawirus_backend/auth.py: reading the bearer
    token out of the `Authorization` header, the user record built from the
    identity provider's profile, and the `check_rights` and `moderator`
    decisions. The identity provider itself is not modelled: its profile
    answer is an input. */
module Auth {
  import opened Values
  import opened Store

  /** Python's `str.isspace()` for one character: the separators
      `str.split()` with no argument splits on. */
  predicate IsSpace(c: char) {
    c == ' ' || '\t' <= c <= '\r' || '\U{1C}' <= c <= '\U{1F}' || c == '\U{85}' || c == '\U{A0}'
    || c == '\U{1680}' || '\U{2000}' <= c <= '\U{200A}' || c == '\U{2028}' || c == '\U{2029}'
    || c == '\U{202F}' || c == '\U{205F}' || c == '\U{3000}'
  }

  predicate NoSpace(w: string) {
    forall k | 0 <= k < |w| :: !IsSpace(w[k])
  }

  predicate AllSpace(s: string) {
    forall k | 0 <= k < |s| :: IsSpace(s[k])
  }

  /** The length of the word `s` starts with. */
  function WordRun(s: string): (n: nat)
    ensures n <= |s| && NoSpace(s[..n]) && (n == |s| || IsSpace(s[n]))
    ensures s != [] && !IsSpace(s[0]) ==> n > 0
  {
    if s == [] || IsSpace(s[0]) then 0 else 1 + WordRun(s[1..])
  }

  /** `str.split()`: the maximal runs of non-whitespace characters, in order;
      none at all for a string of whitespace only, the empty one included. */
  function Split(s: string): (parts: seq<string>)
    ensures forall k | 0 <= k < |parts| :: parts[k] != [] && NoSpace(parts[k])
    ensures parts == [] <==> AllSpace(s)
    decreases |s|
  {
    if s == [] then []
    else if IsSpace(s[0]) then
      assert AllSpace(s) <==> AllSpace(s[1..]);
      Split(s[1..])
    else
      var n := WordRun(s);
      [s[..n]] + Split(s[n..])
  }

  lemma {:induction false} WordRunAppend(w: string, rest: string)
    requires NoSpace(w)
    ensures WordRun(w + rest) == |w| + WordRun(rest)
    decreases |w|
  {
    if w != [] {
      assert (w + rest)[1..] == w[1..] + rest;
      WordRunAppend(w[1..], rest);
    } else {
      assert w + rest == rest;
    }
  }

  /** Leading whitespace does not change the parts. */
  lemma {:induction false} SplitSpaceThen(sp: string, rest: string)
    requires AllSpace(sp)
    ensures Split(sp + rest) == Split(rest)
    decreases |sp|
  {
    if sp == [] {
      assert sp + rest == rest;
    } else {
      assert (sp + rest)[1..] == sp[1..] + rest;
      SplitSpaceThen(sp[1..], rest);
    }
  }

  /** A word followed by whitespace (or by nothing) is the first part. */
  lemma {:induction false} SplitWordThen(w: string, rest: string)
    requires w != [] && NoSpace(w)
    requires rest == [] || IsSpace(rest[0])
    ensures Split(w + rest) == [w] + Split(rest)
  {
    var s := w + rest;
    assert s[0] == w[0];
    WordRunAppend(w, rest);
    assert WordRun(rest) == 0;
    assert s[..|w|] == w && s[|w|..] == rest;
  }

  /** A single word splits into itself. */
  lemma SplitWord(w: string)
    requires w != [] && NoSpace(w)
    ensures Split(w) == [w]
  {
    SplitWordThen(w, []);
    assert w + [] == w;
  }

  lemma Assoc(a: string, b: string, c: string)
    ensures a + b + c == a + (b + c)
  {
  }

  /** Words joined by single spaces. */
  function Join(parts: seq<string>): string {
    if |parts| <= 1 then (if parts == [] then "" else parts[0])
    else parts[0] + (" " + Join(parts[1..]))
  }

  /** `str.split()` undoes joining words with single spaces. */
  lemma {:induction false} SplitJoin(parts: seq<string>)
    requires forall k | 0 <= k < |parts| :: parts[k] != [] && NoSpace(parts[k])
    ensures Split(Join(parts)) == parts
    decreases |parts|, 1
  {
    if |parts| == 1 {
      SplitWord(parts[0]);
    } else if |parts| > 1 {
      SplitJoinStep(parts[0], parts[1..]);
      assert parts == [parts[0]] + parts[1..];
    }
  }

  /** One step of `SplitJoin`: the first word, then the rest. */
  lemma {:induction false} SplitJoinStep(w: string, more: seq<string>)
    requires w != [] && NoSpace(w) && more != []
    requires forall k | 0 <= k < |more| :: more[k] != [] && NoSpace(more[k])
    ensures Split(w + (" " + Join(more))) == [w] + more
    decreases |more| + 1, 0
  {
    SplitWordThen(w, " " + Join(more));
    SplitSpaceThen(" ", Join(more));
    SplitJoin(more);
  }

  /** Lower-casing of the ASCII letters. No other character lower-cases to
      one of the letters of "bearer", so on a header word this agrees with
      `str.lower()` for the comparison the parser makes. */
  function Lower(c: char): char {
    if 'A' <= c <= 'Z' then (c as int + 32) as char else c
  }

  /** `w.lower() == "bearer"`. */
  predicate IsBearer(w: string) {
    |w| == 6 && forall k | 0 <= k < 6 :: Lower(w[k]) == "bearer"[k]
  }

  /** A word that lower-cases to "bearer" holds no whitespace. */
  lemma BearerIsOneWord(w: string)
    requires IsBearer(w)
    ensures w != [] && NoSpace(w)
  {
    forall k | 0 <= k < |w|
      ensures !IsSpace(w[k])
    {
      assert Lower(w[k]) == "bearer"[k];
    }
  }

  const HeaderMissing: Error := AuthError("authorization_header_missing", "Authorization header is expected", 401)
  const NoBearer: Error := AuthError("invalid_header", "Authorization header must start with Bearer", 401)
  const NoToken: Error := AuthError("invalid_header", "Token not found", 401)
  const NotBearerToken: Error := AuthError("invalid_header", "Authorization header must be Bearer token", 401)

  /** `get_token_auth_header` as written: a missing or empty header is
      refused, but a header of whitespace only passes that test and then has
      no first part to read, which raises IndexError. */
  function TokenFromHeaderAsWritten(header: Option<string>): (r: Result<string>)
    ensures header.None? || header.value == "" ==> r == Err(HeaderMissing)
    ensures r == Err(IndexError) <==> header.Some? && header.value != "" && AllSpace(header.value)
  {
    if header.None? || header.value == "" then Err(HeaderMissing)
    else
      var parts := Split(header.value);
      if parts == [] then Err(IndexError)
      else if !IsBearer(parts[0]) then Err(NoBearer)
      else if |parts| == 1 then Err(NoToken)
      else if |parts| > 2 then Err(NotBearerToken)
      else Ok(parts[1])
  }

  /** `get_token_auth_header` with a whitespace-only header treated as a
      missing one: every failure is a 401 authentication error, and a token
      is returned exactly for a header of two parts the first of which is
      "bearer" in any case. It agrees with the source on every other header. */
  function TokenFromHeader(header: Option<string>): (r: Result<string>)
    ensures r.Err? ==> r.error.AuthError? && r.error.status == 401
    ensures r.Ok? <==> header.Some? && |Split(header.value)| == 2 && IsBearer(Split(header.value)[0])
    ensures r.Ok? ==> r.value == Split(header.value)[1] && r.value != [] && NoSpace(r.value)
    ensures header.None? || AllSpace(header.value) ==> r == Err(HeaderMissing)
    ensures header.Some? && !AllSpace(header.value) ==> r == TokenFromHeaderAsWritten(header)
  {
    if header.None? || Split(header.value) == [] then Err(HeaderMissing)
    else
      var parts := Split(header.value);
      if !IsBearer(parts[0]) then Err(NoBearer)
      else if |parts| == 1 then Err(NoToken)
      else if |parts| > 2 then Err(NotBearerToken)
      else Ok(parts[1])
  }

  /** A first word other than "bearer" is refused before the parts are
      counted, whatever follows it. */
  lemma NoBearerFirst(w: string, rest: string)
    requires w != [] && NoSpace(w) && !IsBearer(w)
    requires rest == [] || IsSpace(rest[0])
    ensures TokenFromHeader(Some(w + rest)) == Err(NoBearer)
  {
    SplitWordThen(w, rest);
  }

  /** "Bearer", any whitespace, and a token: the token is returned. */
  lemma BearerTokenAccepted(w: string, sep: string, token: string)
    requires IsBearer(w)
    requires sep != [] && AllSpace(sep)
    requires token != [] && NoSpace(token)
    ensures TokenFromHeader(Some(w + sep + token)) == Ok(token)
  {
    BearerIsOneWord(w);
    Assoc(w, sep, token);
    SplitWordThen(w, sep + token);
    SplitSpaceThen(sep, token);
    SplitWord(token);
  }

  /** No header, or an empty one: "header missing". */
  lemma MissingHeader()
    ensures TokenFromHeader(None) == Err(HeaderMissing)
    ensures TokenFromHeader(Some("")) == Err(HeaderMissing)
  {
  }

  /** "Basic" alone is refused for its scheme, not for a missing token. */
  lemma BasicAloneRefused()
    ensures TokenFromHeader(Some("Basic")) == Err(NoBearer)
  {
    NoBearerFirst("Basic", "");
    assert "Basic" + "" == "Basic";
  }

  /** "Basic" with two more parts is refused for its scheme, not for the
      number of parts. */
  lemma BasicWithPartsRefused()
    ensures TokenFromHeader(Some("Basic a b")) == Err(NoBearer)
  {
    NoBearerFirst("Basic", " a b");
    assert "Basic" + " a b" == "Basic a b";
  }

  /** "bearer" in any case with nothing after it: "Token not found". */
  lemma BareBearer(w: string)
    requires IsBearer(w)
    ensures TokenFromHeader(Some(w)) == Err(NoToken)
  {
    BearerIsOneWord(w);
    SplitWord(w);
  }

  /** Three words joined by single spaces split into those three. */
  lemma SplitThreeWords(w: string, token: string, extra: string)
    requires w != [] && NoSpace(w)
    requires token != [] && NoSpace(token) && extra != [] && NoSpace(extra)
    ensures Split(w + " " + token + " " + extra) == [w, token, extra]
  {
    Regroup(w, token, extra);
    SplitWordThen(w, " " + (token + (" " + extra)));
    SplitTwoWords(token, extra);
  }

  lemma Regroup(w: string, token: string, extra: string)
    ensures w + " " + token + " " + extra == w + (" " + (token + (" " + extra)))
  {
  }

  /** Two words after a space split into those two words. */
  lemma SplitTwoWords(token: string, extra: string)
    requires token != [] && NoSpace(token) && extra != [] && NoSpace(extra)
    ensures Split(" " + (token + (" " + extra))) == [token, extra]
  {
    SplitSpaceThen(" ", extra);
    SplitWord(extra);
    SplitWordThen(token, " " + extra);
    SplitSpaceThen(" ", token + (" " + extra));
  }

  /** More than two parts behind "bearer": "must be Bearer token". */
  lemma BearerWithExtraParts(header: string)
    requires |Split(header)| > 2 && IsBearer(Split(header)[0])
    ensures TokenFromHeader(Some(header)) == Err(NotBearerToken)
  {
  }

  /** "bearer", a token and one more word: "must be Bearer token". */
  lemma TooManyParts(w: string, token: string, extra: string)
    requires IsBearer(w)
    requires token != [] && NoSpace(token) && extra != [] && NoSpace(extra)
    ensures TokenFromHeader(Some(w + " " + token + " " + extra)) == Err(NotBearerToken)
  {
    BearerIsOneWord(w);
    SplitThreeWords(w, token, extra);
    BearerWithExtraParts(w + " " + token + " " + extra);
  }

  /** A header holding only a no-break space: the source crashes with
      IndexError, where a 401 "header missing" is meant. */
  lemma WhitespaceHeaderCrashes()
    ensures TokenFromHeaderAsWritten(Some("\U{A0}")) == Err(IndexError)
    ensures TokenFromHeader(Some("\U{A0}")) == Err(HeaderMissing)
  {
    assert AllSpace("\U{A0}");
  }

  /** The key under which the identity provider's profile carries the
      application metadata. */
  const MetadataKey: string := "https://koronapoints.netlify.com/app_metadata"

  /** Python truthiness of a JSON value; the zero numbers are the ones whose
      str() is "0", "0.0" or "-0.0". */
  predicate Truthy(v: Json) {
    match v
    case Null => false
    case Bool(b) => b
    case Num(t) => t != "0" && t != "0.0" && t != "-0.0"
    case Str(s) => s != ""
    case Arr(items) => items != []
    case Obj(m) => m != map[]
  }

  /** The user record `requires_auth` passes on: the profile's `sub` (None
      when absent), and a `role` key only when the profile carries truthy
      application metadata, whose `role` it then copies (None when absent).
      Truthy metadata that is not a dict has no `.get`. */
  function UserFromProfile(profile: Doc): (r: Result<Doc>)
    ensures r.Err? <==> Truthy(GetOr(profile, MetadataKey, Null)) && !GetOr(profile, MetadataKey, Null).Obj?
    ensures r.Err? ==> r.error == AttributeError
    ensures r.Ok? ==> "sub" in r.value && r.value["sub"] == GetOr(profile, "sub", Null)
    ensures r.Ok? ==> ("role" in r.value <==> Truthy(GetOr(profile, MetadataKey, Null)))
    ensures r.Ok? ==> r.value.Keys <= {"sub", "role"}
    ensures r.Ok? && "role" in r.value ==> r.value["role"] == GetOr(GetOr(profile, MetadataKey, Null).members, "role", Null)
  {
    var user := map["sub" := GetOr(profile, "sub", Null)];
    var metadata := GetOr(profile, MetadataKey, Null);
    if !Truthy(metadata) then Ok(user)
    else
      match metadata
      case Obj(m) => Ok(user["role" := GetOr(m, "role", Null)])
      case _ => Err(AttributeError)
  }

  /** `user.get('role') == 'moderator'`. */
  predicate IsModerator(user: Doc) {
    "role" in user && user["role"] == Str("moderator")
  }

  /** The stored document `id` names is owned by `sub`. */
  predicate Owns(s: Store, id: Json, sub: Json) {
    id in s.docs && "owned_by" in s.docs[id] && s.docs[id]["owned_by"] == sub
  }

  /** `check_rights`: a moderator passes without any lookup; anyone else
      passes exactly when the point the request's `id` names is stored with
      the user's `sub` as its owner. A request without an `id`, an unknown
      point or a user without `sub` fails with the lookup's error, and an
      owner mismatch with "Not allowed". */
  function CheckRights(user: Doc, req: Json, s: Store, now: string): (r: Result<()>)
    ensures IsModerator(user) ==> r == Ok(())
    ensures r.Ok? && !IsModerator(user) ==>
              req.Obj? && "id" in req.members && "sub" in user && Owns(s, req.members["id"], user["sub"])
    ensures !IsModerator(user) && req.Obj? && "id" in req.members && "sub" in user
            && GetFullPoint(s, req.members["id"], now).Ok? ==>
              (r.Ok? <==> Owns(s, req.members["id"], user["sub"]))
              && (r.Err? ==> r.error == NotAllowed)
    ensures !IsModerator(user) && req.Obj? && "id" in req.members ==>
              (req.members["id"] !in s.docs ==> r == Err(NotFound))
  {
    if GetOr(user, "role", Null) == Str("moderator") then Ok(())
    else
      var id :- Lookup(req, "id");
      var point :- GetFullPoint(s, id, now);
      var sub :- Member(user, "sub");
      if point["owned_by"] == sub then Ok(()) else Err(NotAllowed)
  }

  /** `moderator`: passes exactly moderators; a user record without a `role`
      key fails on the lookup, any other role with "Not allowed". */
  function Moderator(user: Doc): (r: Result<()>)
    ensures r.Ok? <==> IsModerator(user)
    ensures "role" !in user ==> r == Err(KeyError("role"))
    ensures "role" in user && !IsModerator(user) ==> r == Err(NotAllowed)
  {
    var role :- Member(user, "role");
    if role == Str("moderator") then Ok(()) else Err(NotAllowed)
  }

  /** Whoever passes `moderator` passes `check_rights` on any request. */
  lemma ModeratorPassesCheckRights(user: Doc, req: Json, s: Store, now: string)
    requires Moderator(user).Ok?
    ensures CheckRights(user, req, s, now).Ok?
  {
  }

  /** A profile without truthy application metadata gives a user with no
      role: `moderator` refuses it on the lookup, and `check_rights` lets it
      through only as the owner. */
  lemma NoMetadataNoRole(profile: Doc, req: Json, s: Store, now: string)
    requires !Truthy(GetOr(profile, MetadataKey, Null))
    ensures UserFromProfile(profile).Ok?
    ensures Moderator(UserFromProfile(profile).value) == Err(KeyError("role"))
    ensures CheckRights(UserFromProfile(profile).value, req, s, now).Ok? ==>
              Owns(s, req.members["id"], GetOr(profile, "sub", Null))
  {
  }
}

=== FILE: clock.dfy ===
/** The clock readings the backend formats: the epoch text of a point's
    `last_modified_timestamp`, the audit record's `timestamp`, and the month
    suffix of the audit-log index. The clock itself is an input. */
module Clock {

  /** Four-digit years: glibc's `%Y` does not zero-pad years below 1000,
      so only these format as four digits. */
  type Year = y: int | 1000 <= y <= 9999 witness 1000
  type Month = m: int | 1 <= m <= 12 witness 1
  type Day = d: int | 1 <= d <= 31 witness 1
  type Hour = h: int | 0 <= h < 24
  type Sixty = s: int | 0 <= s < 60

  /** A Python `datetime` reading, to the second. */
  datatype DateTime = DateTime(year: Year, month: Month, day: Day, hour: Hour, minute: Sixty, second: Sixty)

  /** What one request reads from the clock: `datetime.utcnow()`, the local
      `datetime.today()`, and the text `utcnow().strftime("%s")` gives. */
  datatype Reading = Reading(utc: DateTime, local: DateTime, epoch: string)

  function Pow10(n: nat): nat {
    if n == 0 then 1 else 10 * Pow10(n - 1)
  }

  predicate IsDigits(s: string) {
    forall i | 0 <= i < |s| :: '0' <= s[i] <= '9'
  }

  /** The last `width` decimal digits of `n`, zero-padded (strftime's %m, %Y, ...). */
  function Digits(n: nat, width: nat): (s: string)
    ensures |s| == width && IsDigits(s)
  {
    if width == 0 then "" else Digits(n / 10, width - 1) + [(('0' as int) + n % 10) as char]
  }

  /** The number a string of decimal digits denotes. */
  function Value(s: string): nat
    requires IsDigits(s)
  {
    if s == [] then 0 else 10 * Value(s[..|s| - 1]) + (s[|s| - 1] as int - '0' as int)
  }

  /** Zero-padding to `width` digits loses nothing when `n` fits. */
  lemma {:induction false} ValueOfDigits(n: nat, width: nat)
    requires n < Pow10(width)
    ensures Value(Digits(n, width)) == n
  {
    if width > 0 {
      ValueOfDigits(n / 10, width - 1);
      var s := Digits(n, width);
      assert s[..|s| - 1] == Digits(n / 10, width - 1);
    }
  }

  /** Two readings in different months (or years) log to different indices. */
  lemma LogIndexSeparatesMonths(index: string, d1: DateTime, d2: DateTime)
    requires d1.month != d2.month || d1.year != d2.year
    ensures LogIndexName(index, d1) != LogIndexName(index, d2)
  {
  }

  /** The index pattern `get_logs` searches: every month of the family. */
  function LogIndexPattern(index: string): string {
    index + "_*"
  }

  /** An index name matched by a pattern ending in a single `*`. */
  predicate MatchesPattern(pattern: string, name: string) {
    |pattern| > 0 && pattern[|pattern| - 1] == '*'
    && |pattern| - 1 <= |name| && name[..|pattern| - 1] == pattern[..|pattern| - 1]
  }

  /** Every audit index `save_log` writes is one `get_logs` searches, and
      none of them is the point index itself. */
  lemma LogIndicesFound(index: string, local: DateTime)
    ensures MatchesPattern(LogIndexPattern(index), LogIndexName(index, local))
    ensures LogIndexName(index, local) != index
  {
    var name := LogIndexName(index, local);
    assert name[..|index| + 1] == index + "_";
    assert LogIndexPattern(index)[..|index| + 1] == index + "_";
  }

  /** `s` holds the `width`-digit decimal numeral of `n` at `from`. */
  predicate FieldIs(s: string, from: nat, width: nat, n: nat) {
    from + width <= |s| && IsDigits(s[from..from + width]) && Value(s[from..from + width]) == n
  }

  /** A zero-padded numeral placed between two strings can be read back. */
  lemma FieldAt(pre: string, n: nat, width: nat, post: string)
    requires n < Pow10(width)
    ensures FieldIs(pre + Digits(n, width) + post, |pre|, width, n)
  {
    ValueOfDigits(n, width);
    var s := pre + Digits(n, width) + post;
    assert s[|pre|..|pre| + width] == Digits(n, width);
  }

  /** The month suffix `save_log` appends to the index: `_%m_%Y` of the
      local date. */
  function LogIndexName(index: string, local: DateTime): (name: string)
    ensures |name| == |index| + 8
    ensures name[..|index|] == index && name[|index|] == '_' && name[|index| + 3] == '_'
    ensures FieldIs(name, |index| + 1, 2, local.month) && FieldIs(name, |index| + 4, 4, local.year)
  {
    var m, y := Digits(local.month, 2), Digits(local.year, 4);
    FieldAt(index + "_", local.month, 2, "_" + y);
    FieldAt(index + "_" + m + "_", local.year, 4, "");
    assert index + "_" + m + ("_" + y) == index + "_" + m + "_" + y;
    assert index + "_" + m + "_" + y + "" == index + "_" + m + "_" + y;
    index + "_" + m + "_" + y
  }

  /** Three numerals separated by `sep` are three fields. */
  lemma ThreeFields(x: string, y: string, z: string, sep: char, a: nat, b: nat, c: nat)
    requires IsDigits(x) && IsDigits(y) && IsDigits(z)
    requires Value(x) == a && Value(y) == b && Value(z) == c
    ensures var s := x + [sep] + y + [sep] + z;
            && |s| == |x| + |y| + |z| + 2 && s[|x|] == sep && s[|x| + 1 + |y|] == sep
            && FieldIs(s, 0, |x|, a) && FieldIs(s, |x| + 1, |y|, b) && FieldIs(s, |x| + |y| + 2, |z|, c)
  {
    var s := x + [sep] + y + [sep] + z;
    assert s[0..|x|] == x;
    assert s[|x| + 1..|x| + 1 + |y|] == y;
    assert s[|x| + |y| + 2..|x| + |y| + 2 + |z|] == z;
  }

  /** `%Y/%m/%d` of a reading. */
  function DatePart(t: DateTime): (s: string)
    ensures |s| == 10 && s[4] == '/' && s[7] == '/'
    ensures FieldIs(s, 0, 4, t.year) && FieldIs(s, 5, 2, t.month) && FieldIs(s, 8, 2, t.day)
  {
    var y, m, d := Digits(t.year, 4), Digits(t.month, 2), Digits(t.day, 2);
    ValueOfDigits(t.year, 4);
    ValueOfDigits(t.month, 2);
    ValueOfDigits(t.day, 2);
    ThreeFields(y, m, d, '/', t.year, t.month, t.day);
    y + ['/'] + m + ['/'] + d
  }

  /** `%H:%M:%S` of a reading. */
  function TimePart(t: DateTime): (s: string)
    ensures |s| == 8 && s[2] == ':' && s[5] == ':'
    ensures FieldIs(s, 0, 2, t.hour) && FieldIs(s, 3, 2, t.minute) && FieldIs(s, 6, 2, t.second)
  {
    var h, m, c := Digits(t.hour, 2), Digits(t.minute, 2), Digits(t.second, 2);
    ValueOfDigits(t.hour, 2);
    ValueOfDigits(t.minute, 2);
    ValueOfDigits(t.second, 2);
    ThreeFields(h, m, c, ':', t.hour, t.minute, t.second);
    h + [':'] + m + [':'] + c
  }

  /** `strftime("%Y/%m/%d %H:%M:%S")`: the audit record's timestamp, a date
      and a time separated by one space. */
  function LogTimestamp(t: DateTime): (s: string)
    ensures |s| == 19 && s[10] == ' '
    ensures s[..10] == DatePart(t) && s[11..] == TimePart(t)
  {
    var s := DatePart(t) + " " + TimePart(t);
    assert s[..10] == DatePart(t);
    assert s[11..] == TimePart(t);
    s
  }
}

=== FILE: points.dfy ===
/** The `Point` entity of koronawirus_backend/elastic.py: construction,
    decoding from an engine hit, the public and privileged views, and the
    diff-based partial update `modify`. */
module Points {
  import opened Values

  /** The tri-state of one attribute in an update intent: `NotDefined` leaves
      the attribute alone, `Set(v)` assigns `v` -- also when `v` is `Null`. */
  datatype Field<+T> = NotDefined | Set(value: T) {
    function Or(current: T): T {
      match this
      case NotDefined => current
      case Set(v) => v
    }
  }

  datatype Point = Point(
    name: Json,
    operator: Json,
    address: Json,
    openingHours: Json,
    lat: Json,
    lon: Json,
    pointType: Json,
    phone: Json,
    prepareInstruction: Json,
    ownedBy: Json,
    waitingTime: Json,
    docId: Json,                      // Null until the engine assigned an id
    lastModified: Json)

  /** What every constructed point satisfies: string coordinates and a
      timestamp. */
  predicate Valid(p: Point) {
    p.lat.Str? && p.lon.Str? && p.lastModified != Null
  }

  /** `Point.__init__`: coordinates go through str(), and a missing (None)
      timestamp becomes the current epoch text `now`. */
  function Make(name: Json, operator: Json, address: Json, openingHours: Json, lat: Json, lon: Json,
                pointType: Json, phone: Json, prepareInstruction: Json, ownedBy: Json,
                waitingTime: Json, docId: Json, lastModified: Json, now: string): (p: Point)
    ensures Valid(p)
    ensures p.lat == Str(PyStr(lat)) && p.lon == Str(PyStr(lon))
    ensures lastModified != Null ==> p.lastModified == lastModified
    ensures lastModified == Null ==> p.lastModified == Str(now)
    ensures p.(lat := lat, lon := lon, lastModified := lastModified)
         == Point(name, operator, address, openingHours, lat, lon, pointType, phone,
                  prepareInstruction, ownedBy, waitingTime, docId, lastModified)
  {
    Point(name, operator, address, openingHours, Str(PyStr(lat)), Str(PyStr(lon)), pointType, phone,
          prepareInstruction, ownedBy, waitingTime, docId,
          if lastModified == Null then Str(now) else lastModified)
  }

  /** `Point.new_point`: a point owned by `userSub`, without id, stamped now. */
  function NewPoint(name: Json, operator: Json, address: Json, openingHours: Json, lat: Json, lon: Json,
                    pointType: Json, phone: Json, prepareInstruction: Json, waitingTime: Json,
                    userSub: Json, now: string): (p: Point)
    ensures Valid(p)
    ensures p.ownedBy == userSub && p.docId == Null && p.lastModified == Str(now)
    ensures p.lat == Str(PyStr(lat)) && p.lon == Str(PyStr(lon))
  {
    Make(name, operator, address, openingHours, lat, lon, pointType, phone, prepareInstruction,
         userSub, waitingTime, Null, Null, now)
  }

  /* ----- the two views ----- */

  /** The keys of the public view without an id. */
  const PublicKeys: set<string> :=
    {"name", "operator", "address", "location", "type", "opening_hours", "phone",
     "prepare_instruction", "last_modified_timestamp", "waiting_time"}

  /** `Point.to_dict(with_id)`: the public view; never carries `owned_by`. */
  function ToDict(p: Point, withId: bool): (d: Doc)
    ensures d.Keys == PublicKeys + (if withId then {"id"} else {})
    ensures "owned_by" !in d
    ensures "id" in d <==> withId
    ensures withId ==> d["id"] == p.docId
  {
    var body := map[
      "name" := p.name,
      "operator" := p.operator,
      "address" := p.address,
      "location" := Obj(map["lat" := p.lat, "lon" := p.lon]),
      "type" := p.pointType,
      "opening_hours" := p.openingHours,
      "phone" := p.phone,
      "prepare_instruction" := p.prepareInstruction,
      "last_modified_timestamp" := p.lastModified,
      "waiting_time" := p.waitingTime];
    if withId then body["id" := p.docId] else body
  }

  /** `Point.to_index(with_id)`: the privileged view, i.e. the public view
      plus `owned_by`. */
  function ToIndex(p: Point, withId: bool): (d: Doc)
    ensures d.Keys == ToDict(p, withId).Keys + {"owned_by"}
    ensures d["owned_by"] == p.ownedBy
    ensures forall k | k in ToDict(p, withId) :: d[k] == ToDict(p, withId)[k]
  {
    ToDict(p, withId)["owned_by" := p.ownedBy]
  }

  /* ----- decoding ----- */

  /** The shape of a get/search hit the engine returns for document `doc`
      stored under `id`. */
  function Hit(id: Json, doc: Doc): Json {
    Obj(map["_id" := id, "_source" := Obj(doc)])
  }

  /** The keys `from_dict` reads from `_source`. */
  const SourceKeys: set<string> :=
    {"name", "operator", "address", "location", "type", "opening_hours", "phone",
     "prepare_instruction", "owned_by", "last_modified_timestamp", "waiting_time"}

  /** A hit from which `from_dict` can read every key it asks for. */
  predicate Decodable(body: Json) {
    && body.Obj?
    && "_source" in body.members
    && "_id" in body.members
    && body.members["_source"].Obj?
    && SourceKeys <= body.members["_source"].members.Keys
    && body.members["_source"].members["location"].Obj?
    && "lat" in body.members["_source"].members["location"].members
    && "lon" in body.members["_source"].members["location"].members
  }

  /** `Point.from_dict`: reads the keys in the order the source evaluates
      them and fails with the first KeyError/TypeError. A null timestamp in
      the document is replaced by `now`, as the constructor does. */
  function FromDict(body: Json, now: string): (r: Result<Point>)
    ensures r.Ok? <==> Decodable(body)
    ensures r.Err? ==> r.error.KeyError? || r.error == TypeError
    ensures r.Ok? ==>
              var src := body.members["_source"].members;
              var loc := src["location"].members;
              r.value == Make(src["name"], src["operator"], src["address"], src["opening_hours"],
                              loc["lat"], loc["lon"], src["type"], src["phone"], src["prepare_instruction"],
                              src["owned_by"], src["waiting_time"], body.members["_id"],
                              src["last_modified_timestamp"], now)
  {
    var source :- Lookup(body, "_source");
    var name :- Lookup(source, "name");
    var operator :- Lookup(source, "operator");
    var address :- Lookup(source, "address");
    var location :- Lookup(source, "location");
    var lat :- Lookup(location, "lat");
    var lon :- Lookup(location, "lon");
    var pointType :- Lookup(source, "type");
    var openingHours :- Lookup(source, "opening_hours");
    var phone :- Lookup(source, "phone");
    var prepareInstruction :- Lookup(source, "prepare_instruction");
    var ownedBy :- Lookup(source, "owned_by");
    var lastModified :- Lookup(source, "last_modified_timestamp");
    var waitingTime :- Lookup(source, "waiting_time");
    var id :- Lookup(body, "_id");
    Ok(Make(name, operator, address, openingHours, lat, lon, pointType, phone, prepareInstruction,
            ownedBy, waitingTime, id, lastModified, now))
  }

  /** The privileged view holds every key `from_dict` reads. */
  lemma IndexDecodable(p: Point, id: Json, withId: bool)
    ensures Decodable(Hit(id, ToIndex(p, withId)))
  {
    var d := ToIndex(p, withId);
    assert d["location"] == Obj(map["lat" := p.lat, "lon" := p.lon]);
  }

  /** What the privileged view stores under each key `from_dict` reads. */
  lemma IndexFields(p: Point, withId: bool)
    ensures var d := ToIndex(p, withId);
            && d["name"] == p.name && d["operator"] == p.operator && d["address"] == p.address
            && d["opening_hours"] == p.openingHours && d["type"] == p.pointType
            && d["location"] == Obj(map["lat" := p.lat, "lon" := p.lon])
  {
    var body := ToDict(p, withId);
    assert body["name"] == p.name && body["operator"] == p.operator && body["address"] == p.address;
    assert body["opening_hours"] == p.openingHours && body["type"] == p.pointType;
  }

  lemma IndexMoreFields(p: Point, withId: bool)
    ensures var d := ToIndex(p, withId);
            && d["phone"] == p.phone && d["prepare_instruction"] == p.prepareInstruction
            && d["waiting_time"] == p.waitingTime && d["last_modified_timestamp"] == p.lastModified
  {
  }

  /** Decoding the privileged view re-runs the constructor on the point's
      own attributes: every attribute survives, the coordinates go through
      str() again, and the id is the one the hit carries. */
  lemma DecodeIndexed(p: Point, id: Json, withId: bool, now: string)
    ensures FromDict(Hit(id, ToIndex(p, withId)), now)
         == Ok(Make(p.name, p.operator, p.address, p.openingHours, p.lat, p.lon, p.pointType, p.phone,
                    p.prepareInstruction, p.ownedBy, p.waitingTime, id, p.lastModified, now))
  {
    IndexDecodable(p, id, withId);
    IndexFields(p, withId);
    IndexMoreFields(p, withId);
  }

  /** Round trip: `from_dict({'_id': id, '_source': p.to_index()})` is `p`
      with `doc_id = id`, for every constructed point. */
  lemma RoundTrip(p: Point, id: Json, withId: bool, now: string)
    requires Valid(p)
    ensures FromDict(Hit(id, ToIndex(p, withId)), now) == Ok(p.(docId := id))
  {
    DecodeIndexed(p, id, withId, now);
  }

  /* ----- the partial update ----- */

  /** The attributes `modify` takes, named as in the source. */
  datatype Attribute =
    | Name | Operator | Address | Lat | Lon | PointType | OpeningHours | Phone
    | PrepareInstruction | OwnedBy | WaitingTime

  /** `modify`'s parameters in declaration order, the order of its loop. */
  const Attributes: seq<Attribute> :=
    [Name, Operator, Address, Lat, Lon, PointType, OpeningHours, Phone, PrepareInstruction,
     OwnedBy, WaitingTime]

  /** The Python attribute name, which is also the key in a changes map. */
  function Key(a: Attribute): string {
    match a
    case Name => "name"
    case Operator => "operator"
    case Address => "address"
    case Lat => "lat"
    case Lon => "lon"
    case PointType => "point_type"
    case OpeningHours => "opening_hours"
    case Phone => "phone"
    case PrepareInstruction => "prepare_instruction"
    case OwnedBy => "owned_by"
    case WaitingTime => "waiting_time"
  }

  /** The attribute a changes-map key names, if any. */
  function KeyAttribute(k: string): Option<Attribute> {
    match k
    case "name" => Some(Name)
    case "operator" => Some(Operator)
    case "address" => Some(Address)
    case "lat" => Some(Lat)
    case "lon" => Some(Lon)
    case "point_type" => Some(PointType)
    case "opening_hours" => Some(OpeningHours)
    case "phone" => Some(Phone)
    case "prepare_instruction" => Some(PrepareInstruction)
    case "owned_by" => Some(OwnedBy)
    case "waiting_time" => Some(WaitingTime)
    case _ => None
  }

  /** Every key names its attribute back, so no two attributes share a key. */
  lemma KeysDistinct()
    ensures forall a :: KeyAttribute(Key(a)) == Some(a)
    ensures forall a, b | Key(a) == Key(b) :: a == b
  {
    forall a
      ensures KeyAttribute(Key(a)) == Some(a)
    {
      match a
      case Name =>
      case Operator =>
      case Address =>
      case Lat =>
      case Lon =>
      case PointType =>
      case OpeningHours =>
      case Phone =>
      case PrepareInstruction =>
      case OwnedBy =>
      case WaitingTime =>
    }
  }

  /** `getattr(point, a)`. */
  function Attr(p: Point, a: Attribute): Json {
    match a
    case Name => p.name
    case Operator => p.operator
    case Address => p.address
    case Lat => p.lat
    case Lon => p.lon
    case PointType => p.pointType
    case OpeningHours => p.openingHours
    case Phone => p.phone
    case PrepareInstruction => p.prepareInstruction
    case OwnedBy => p.ownedBy
    case WaitingTime => p.waitingTime
  }

  /** `setattr(point, a, v)`. */
  function WithAttr(p: Point, a: Attribute, v: Json): (q: Point)
    ensures Attr(q, a) == v
    ensures forall b | b != a :: Attr(q, b) == Attr(p, b)
    ensures q.docId == p.docId && q.lastModified == p.lastModified
  {
    match a
    case Name => p.(name := v)
    case Operator => p.(operator := v)
    case Address => p.(address := v)
    case Lat => p.(lat := v)
    case Lon => p.(lon := v)
    case PointType => p.(pointType := v)
    case OpeningHours => p.(openingHours := v)
    case Phone => p.(phone := v)
    case PrepareInstruction => p.(prepareInstruction := v)
    case OwnedBy => p.(ownedBy := v)
    case WaitingTime => p.(waitingTime := v)
  }

  /** The arguments of one `modify` call. */
  datatype Intent = Intent(
    name: Field<Json>,
    operator: Field<Json>,
    address: Field<Json>,
    lat: Field<Json>,
    lon: Field<Json>,
    pointType: Field<Json>,
    openingHours: Field<Json>,
    phone: Field<Json>,
    prepareInstruction: Field<Json>,
    ownedBy: Field<Json>,
    waitingTime: Field<Json>)

  /** The intent that touches nothing. */
  const Untouched: Intent :=
    Intent(NotDefined, NotDefined, NotDefined, NotDefined, NotDefined, NotDefined, NotDefined,
           NotDefined, NotDefined, NotDefined, NotDefined)

  /** The argument of `modify` named `a`. */
  function Param(i: Intent, a: Attribute): Field<Json> {
    match a
    case Name => i.name
    case Operator => i.operator
    case Address => i.address
    case Lat => i.lat
    case Lon => i.lon
    case PointType => i.pointType
    case OpeningHours => i.openingHours
    case Phone => i.phone
    case PrepareInstruction => i.prepareInstruction
    case OwnedBy => i.ownedBy
    case WaitingTime => i.waitingTime
  }

  /** One entry of the changes map: `{old_value, new_value}`. */
  datatype Change = Change(oldValue: Json, newValue: Json)

  type Changes = map<Attribute, Change>

  /** The intent sets `a` to a value other than the point's current one. */
  predicate Differs(p: Point, i: Intent, a: Attribute) {
    Param(i, a).Set? && Param(i, a).value != Attr(p, a)
  }

  /** The loop of `modify` over the attributes `attrs`: assign every
      attribute that is not NotDefined and record it when it differed. */
  function ModifyEach(p: Point, i: Intent, attrs: seq<Attribute>): (r: (Point, Changes))
    ensures forall a :: Attr(r.0, a) == if a in attrs then Param(i, a).Or(Attr(p, a)) else Attr(p, a)
    ensures r.0.docId == p.docId && r.0.lastModified == p.lastModified
    ensures forall a :: a in r.1 <==> a in attrs && Differs(p, i, a)
    ensures forall a | a in r.1 :: r.1[a].oldValue == Attr(p, a) && Param(i, a) == Set(r.1[a].newValue)
    decreases |attrs|
  {
    if attrs == [] then (p, map[])
    else
      var a := attrs[0];
      match Param(i, a)
      case NotDefined => ModifyEach(p, i, attrs[1..])
      case Set(v) =>
        var rest := ModifyEach(WithAttr(p, a, v), i, attrs[1..]);
        (rest.0, if Attr(p, a) != v then rest.1[a := Change(Attr(p, a), v)] else rest.1)
  }

  /** The attributes whose change `modify` records. */
  function ChangedAttributes(p: Point, i: Intent): set<Attribute> {
    set a | a in Attributes && Differs(p, i, a)
  }

  /** `Point.modify`: every attribute the intent sets takes the intent's
      value, NotDefined attributes and the id are left alone, the timestamp
      is reassigned to `now` unconditionally, and the changes map holds
      exactly the attributes whose value differed, with old and new value. */
  function Modify(p: Point, i: Intent, now: string): (r: (Point, Changes))
    ensures forall a :: Attr(r.0, a) == Param(i, a).Or(Attr(p, a))
    ensures r.0.docId == p.docId && r.0.lastModified == Str(now)
    ensures r.1.Keys == ChangedAttributes(p, i)
    ensures forall a | a in r.1 :: r.1[a].oldValue == Attr(p, a) && Param(i, a) == Set(r.1[a].newValue)
  {
    AllAttributesListed();
    var (q, changed) := ModifyEach(p, i, Attributes);
    (q.(lastModified := Str(now)), changed)
  }

  /** `Attributes` lists every attribute. */
  lemma AllAttributesListed()
    ensures forall a :: a in Attributes
  {
    forall a
      ensures a in Attributes
    {
      match a
      case Name =>
      case Operator =>
      case Address =>
      case Lat =>
      case Lon =>
      case PointType =>
      case OpeningHours =>
      case Phone =>
      case PrepareInstruction =>
      case OwnedBy =>
      case WaitingTime =>
    }
  }

  /** A point is determined by its attributes, its id and its timestamp. */
  lemma SameAttributes(p: Point, q: Point)
    requires forall a :: Attr(p, a) == Attr(q, a)
    requires p.docId == q.docId && p.lastModified == q.lastModified
    ensures p == q
  {
    assert Attr(p, Name) == Attr(q, Name) && Attr(p, Operator) == Attr(q, Operator);
    assert Attr(p, Address) == Attr(q, Address) && Attr(p, Lat) == Attr(q, Lat);
    assert Attr(p, Lon) == Attr(q, Lon) && Attr(p, PointType) == Attr(q, PointType);
    assert Attr(p, OpeningHours) == Attr(q, OpeningHours) && Attr(p, Phone) == Attr(q, Phone);
    assert Attr(p, PrepareInstruction) == Attr(q, PrepareInstruction);
    assert Attr(p, OwnedBy) == Attr(q, OwnedBy) && Attr(p, WaitingTime) == Attr(q, WaitingTime);
  }

  /** Applying the same intent a second time records no change. */
  lemma ModifyTwiceRecordsNothing(p: Point, i: Intent, now: string, later: string)
    ensures Modify(Modify(p, i, now).0, i, later).1 == map[]
  {
    var q := Modify(p, i, now).0;
    forall a | a in Attributes
      ensures !Differs(q, i, a)
    {
    }
    assert ChangedAttributes(q, i) == {};
  }

  /** An intent that sets only values the point already holds records no
      change. */
  lemma NoOpModify(p: Point, i: Intent, now: string)
    requires forall a :: Param(i, a).Set? ==> Param(i, a).value == Attr(p, a)
    ensures Modify(p, i, now).1 == map[]
  {
    assert ChangedAttributes(p, i) == {};
  }

  /** Such an intent leaves every attribute as it was, yet the timestamp is
      still reassigned. */
  lemma NoOpModifyStamps(p: Point, i: Intent, now: string)
    requires forall a :: Param(i, a).Set? ==> Param(i, a).value == Attr(p, a)
    ensures Modify(p, i, now).0 == p.(lastModified := Str(now))
  {
    var q := Modify(p, i, now).0;
    var stamped := p.(lastModified := Str(now));
    forall a
      ensures Attr(q, a) == Attr(stamped, a)
    {
      StampKeepsAttr(p, now, a);
    }
    SameAttributes(q, stamped);
  }

  lemma StampKeepsAttr(p: Point, now: string, a: Attribute)
    ensures Attr(p.(lastModified := Str(now)), a) == Attr(p, a)
  {
  }

  /** A modified point stays valid when the intent leaves the coordinates
      alone or sets them to strings. */
  lemma ModifyKeepsValid(p: Point, i: Intent, now: string)
    requires Valid(p)
    requires i.lat.NotDefined? || i.lat.value.Str?
    requires i.lon.NotDefined? || i.lon.value.Str?
    ensures Valid(Modify(p, i, now).0)
  {
    var q := Modify(p, i, now).0;
    assert Attr(q, Lat) == i.lat.Or(p.lat);
    assert Attr(q, Lon) == i.lon.Or(p.lon);
  }

  /** The intent that sets attribute `a` to `v` and nothing else. */
  function Only(a: Attribute, v: Json): (i: Intent)
    ensures Param(i, a) == Set(v)
    ensures forall b | b != a :: Param(i, b) == NotDefined
  {
    match a
    case Name => Untouched.(name := Set(v))
    case Operator => Untouched.(operator := Set(v))
    case Address => Untouched.(address := Set(v))
    case Lat => Untouched.(lat := Set(v))
    case Lon => Untouched.(lon := Set(v))
    case PointType => Untouched.(pointType := Set(v))
    case OpeningHours => Untouched.(openingHours := Set(v))
    case Phone => Untouched.(phone := Set(v))
    case PrepareInstruction => Untouched.(prepareInstruction := Set(v))
    case OwnedBy => Untouched.(ownedBy := Set(v))
    case WaitingTime => Untouched.(waitingTime := Set(v))
  }

  /** An intent that sets one attribute records at most that attribute:
      exactly its entry when the value differs, nothing otherwise. */
  lemma OnlyChanges(p: Point, a: Attribute, v: Json)
    ensures ChangedAttributes(p, Only(a, v)) == if Attr(p, a) != v then {a} else {}
  {
    var i := Only(a, v);
    AllAttributesListed();
    forall b
      ensures b in ChangedAttributes(p, i) <==> b == a && Attr(p, a) != v
    {
    }
  }

  lemma SingleAttributeChange(p: Point, a: Attribute, v: Json, now: string)
    ensures Modify(p, Only(a, v), now).1
         == if Attr(p, a) != v then map[a := Change(Attr(p, a), v)] else map[]
  {
    var c := Modify(p, Only(a, v), now).1;
    OnlyChanges(p, a, v);
    if Attr(p, a) != v {
      ChangedEntry(p, Only(a, v), now, a);
    }
  }

  lemma ChangedEntry(p: Point, i: Intent, now: string, a: Attribute)
    requires ChangedAttributes(p, i) == {a}
    ensures Modify(p, i, now).1 == map[a := Change(Attr(p, a), Param(i, a).value)]
  {
    var c := Modify(p, i, now).1;
    assert a in c;
  }

  /** The name of the point in the tests' fixture. */
  const SampleName := "G\U{f3}ry Wa\U{142}brzyskie, masyw Che\U{142}mca"

  /** A point with the name, coordinates, type, id and last-modified stamp of
      the tests' fixture; the fields the fixture does not carry are null. */
  const Sample: Point :=
    Point(Str(SampleName), Null, Null, Null, Str("50.763923"), Str("16.180389"), Str("SHED"),
          Null, Null, Null, Null, Str("7g5qqnABsqio5qhd0cbc"), Str("1583403439"))

  /** Changing only the name records exactly the `name` entry. */
  lemma RenameRecordsOnlyName(now: string)
    ensures Modify(Sample, Only(Name, Str("changed name")), now).1
         == map[Name := Change(Str(SampleName), Str("changed name"))]
  {
    SingleAttributeChange(Sample, Name, Str("changed name"), now);
  }

  /** Moving the latitude from "50.763923" to "49" records exactly the `lat`
      entry with both strings. */
  lemma MoveLatitude(p: Point, now: string)
    requires p.lat == Str("50.763923")
    ensures Modify(p, Only(Lat, Str("49")), now).1 == map[Lat := Change(Str("50.763923"), Str("49"))]
  {
    SingleAttributeChange(p, Lat, Str("49"), now);
  }

  /** The changes map as the document the audit log stores: attribute name
      to `{"old_value": ..., "new_value": ...}`. */
  function ChangesJson(c: Changes): (j: Json)
    ensures j.Obj? && j.members.Keys == set a | a in c :: Key(a)
    ensures forall a | a in c ::
              j.members[Key(a)] == Obj(map["old_value" := c[a].oldValue, "new_value" := c[a].newValue])
  {
    KeysDistinct();
    Obj(map a | a in c :: Key(a) := Obj(map["old_value" := c[a].oldValue, "new_value" := c[a].newValue]))
  }
}

=== FILE: queries.dfy ===
/** The query fragments `Elasticsearch` builds in
    koronawirus_backend/elastic.py: `add_to_or_create_list`, the `bool`
    query of `search_points`, the bounding-box corners shared with
    `get_points`, the owner filter of `get_my_points` and the log query of
    `get_logs`. Queries are JSON values, as the source's dicts are. */
module Queries {
  import opened Values

  /** `add_to_or_create_list(location, name, query)`: append `query` to the
      list under `name`, creating an empty list first when the key is
      absent; a non-list under `name` has no `append`. */
  function AddToOrCreateList(location: Doc, name: string, query: Json): (r: Result<Doc>)
    ensures r.Ok? <==> name !in location || location[name].Arr?
    ensures r.Err? ==> r.error == AttributeError
    ensures r.Ok? ==> r.value.Keys == location.Keys + {name}
    ensures r.Ok? ==> forall k | k in location && k != name :: r.value[k] == location[k]
    ensures r.Ok? && name !in location ==> r.value[name] == Arr([query])
    ensures r.Ok? && name in location ==>
              r.value[name].Arr? && |r.value[name].items| == |location[name].items| + 1
              && r.value[name].items[..|location[name].items|] == location[name].items
              && r.value[name].items[|location[name].items|] == query
  {
    var list := if name in location then location[name] else Arr([]);
    assert [] + [query] == [query];
    if list.Arr? then Ok(location[name := Arr(list.items + [query])]) else Err(AttributeError)
  }

  /** A corner of a bounding box, as the strings the filter carries. */
  datatype Corner = Corner(lat: string, lon: string)

  datatype Box = Box(topLeft: Corner, bottomRight: Corner)

  /** A corner argument from which `lat` and `lon` can be read. */
  predicate HasLatLon(c: Json) {
    c.Obj? && "lat" in c.members && "lon" in c.members
  }

  /** The corner derivation `search_points` and `get_points` share: the
      top-left corner takes `top_right`'s latitude and `bottom_left`'s
      longitude, the bottom-right corner the other two. The four lookups run
      in the order the source writes them; the first failing one raises. */
  function Corners(topRight: Json, bottomLeft: Json): (r: Result<Box>)
    ensures r.Ok? <==> HasLatLon(topRight) && HasLatLon(bottomLeft)
    ensures r.Ok? ==> r.value.topLeft == Corner(PyStr(topRight.members["lat"]), PyStr(bottomLeft.members["lon"]))
    ensures r.Ok? ==> r.value.bottomRight == Corner(PyStr(bottomLeft.members["lat"]), PyStr(topRight.members["lon"]))
    ensures !topRight.Obj? ==> r == Err(TypeError)
  {
    var topLat :- Lookup(topRight, "lat");
    var leftLon :- Lookup(bottomLeft, "lon");
    var bottomLat :- Lookup(bottomLeft, "lat");
    var rightLon :- Lookup(topRight, "lon");
    Ok(Box(Corner(PyStr(topLat), PyStr(leftLon)), Corner(PyStr(bottomLat), PyStr(rightLon))))
  }

  /** The corners are taken as given, not normalised: swapping the two
      arguments swaps the two corners of the box. */
  lemma CornersSwap(topRight: Json, bottomLeft: Json)
    requires HasLatLon(topRight) && HasLatLon(bottomLeft)
    ensures Corners(bottomLeft, topRight).value.topLeft == Corners(topRight, bottomLeft).value.bottomRight
    ensures Corners(bottomLeft, topRight).value.bottomRight == Corners(topRight, bottomLeft).value.topLeft
  {
  }

  /** The corner arguments `{lat, lon}` with numeric members. */
  function LatLonArg(lat: string, lon: string): Json {
    Obj(map["lat" := Num(lat), "lon" := Num(lon)])
  }

  /** top_right (10, 20) and bottom_left (5, 15) give top_left (10, 15) and
      bottom_right (5, 20). */
  lemma CornersExample()
    ensures Corners(LatLonArg("10", "20"), LatLonArg("5", "15"))
         == Ok(Box(Corner("10", "15"), Corner("5", "20")))
  {
  }

  /** The geo filter `search_points` adds for a box. */
  function GeoFilter(b: Box): Json {
    Obj(map["geo_bounding_box" := Obj(map["location" := Obj(map[
      "top_left" := Obj(map["lat" := Str(b.topLeft.lat), "lon" := Str(b.topLeft.lon)]),
      "bottom_right" := Obj(map["lat" := Str(b.bottomRight.lat), "lon" := Str(b.bottomRight.lon)])])])])
  }

  /** The term filter on the point's category. */
  function TypeFilter(pointType: Json): Json {
    Obj(map["term" := Obj(map["type" := Obj(map["value" := pointType])])])
  }

  /** The weighted free-text match over name, operator and address. */
  function TextMatch(phrase: Json): Json {
    Obj(map["multi_match" := Obj(map[
      "query" := phrase,
      "fields" := Arr([Str("name^3"), Str("operator"), Str("address")])])])
  }

  /** The filters `search_points` expects for its arguments, in order. */
  function ExpectedFilters(pointType: Json, box: Option<Box>): seq<Json> {
    (if pointType != Null then [TypeFilter(pointType)] else [])
    + (if box.Some? then [GeoFilter(box.value)] else [])
  }

  /** The `bool` clause of `search_points`: the one text match under `must`;
      a `filter` list exactly when a category or both corners are given, with
      the category term first and the geo box second. Only the corner lookups
      can fail. */
  function SearchClause(phrase: Json, pointType: Json, topRight: Json, bottomLeft: Json): (r: Result<Doc>)
    ensures r.Ok? <==> topRight == Null || bottomLeft == Null || Corners(topRight, bottomLeft).Ok?
    ensures r.Err? ==> r.error == Corners(topRight, bottomLeft).error
    ensures r.Ok? ==> "must" in r.value && r.value["must"] == Arr([TextMatch(phrase)])
    ensures r.Ok? ==> r.value.Keys <= {"must", "filter"}
    ensures r.Ok? ==>
              var box := if topRight != Null && bottomLeft != Null then Some(Corners(topRight, bottomLeft).value) else None;
              ("filter" in r.value <==> ExpectedFilters(pointType, box) != [])
              && ("filter" in r.value ==> r.value["filter"] == Arr(ExpectedFilters(pointType, box)))
  {
    var clause := map["must" := Arr([TextMatch(phrase)])];
    var typed := if pointType != Null then AddToOrCreateList(clause, "filter", TypeFilter(pointType)).value
                 else clause;
    if topRight != Null && bottomLeft != Null then
      var box :- Corners(topRight, bottomLeft);
      Ok(AddToOrCreateList(typed, "filter", GeoFilter(box)).value)
    else
      Ok(typed)
  }

  /** `{"query": {"bool": clause}}`. */
  function BoolQuery(clause: Doc): Json {
    Obj(map["query" := Obj(map["bool" := Obj(clause)])])
  }

  /** The clause a `{"query": {"bool": clause}}` body carries, if it has that
      shape: how the engine reads back what `BoolQuery` builds. */
  function BoolClause(q: Json): (c: Option<Doc>)
    ensures c.Some? ==> BoolQuery(c.value) == q
  {
    if && q.Obj? && q.members.Keys == {"query"} && q.members["query"].Obj?
       && q.members["query"].members.Keys == {"bool"} && q.members["query"].members["bool"].Obj?
    then
      var inner := q.members["query"].members;
      assert inner == map["bool" := inner["bool"]];
      assert q.members == map["query" := Obj(inner)];
      Some(inner["bool"].members)
    else None
  }

  /** Reading a built bool query gives back its clause. */
  lemma BoolClauseOfQuery(clause: Doc)
    ensures BoolClause(BoolQuery(clause)) == Some(clause)
  {
    var q := BoolQuery(clause);
    assert q.members.Keys == {"query"};
    assert q.members["query"].members.Keys == {"bool"};
  }

  /** The value a `term` query asks `field` to hold, as the engine reads it:
      `{"term": {f: v}}` or `{"term": {f: {"value": v}}}`, where `f` is the
      field or its `.keyword` sub-field. */
  function TermValue(q: Json, field: string): (r: Option<Json>)
    ensures r.Some? ==> q.Obj? && "term" in q.members && q.members["term"].Obj?
    ensures r.Some? ==> field in q.members["term"].members || field + ".keyword" in q.members["term"].members
  {
    if q.Obj? && "term" in q.members && q.members["term"].Obj? then
      var t := q.members["term"].members;
      var f := if field in t then Some(t[field])
               else if field + ".keyword" in t then Some(t[field + ".keyword"])
               else None;
      match f
      case None => None
      case Some(v) => if v.Obj? && v.members.Keys == {"value"} then Some(v.members["value"]) else Some(v)
    else None
  }

  /** A document satisfies a `term` query on `field` when it holds exactly
      the value asked for there. */
  predicate SatisfiesTerm(q: Json, field: string, doc: Doc)
    ensures SatisfiesTerm(q, field, doc) ==> field in doc
    ensures TermValue(q, field).None? ==> !SatisfiesTerm(q, field, doc)
  {
    TermValue(q, field).Some? && field in doc && doc[field] == TermValue(q, field).value
  }

  /** A `term` on `field` in either spelling, short `{field: v}` or long
      `{field: {"value": v}}`, or on its `.keyword` sub-field, reads back as
      `v`; the short form only when `v` is not itself an object. */
  lemma TermForms(field: string, v: Json)
    ensures TermValue(Obj(map["term" := Obj(map[field := Obj(map["value" := v])])]), field) == Some(v)
    ensures TermValue(Obj(map["term" := Obj(map[field + ".keyword" := Obj(map["value" := v])])]), field) == Some(v)
    ensures !v.Obj? ==> TermValue(Obj(map["term" := Obj(map[field := v])]), field) == Some(v)
  {
    var long := Obj(map["value" := v]);
    assert long.members.Keys == {"value"};
    assert field != field + ".keyword" by {
      assert |field + ".keyword"| == |field| + 8;
    }
  }

  /** The term `get_my_points` filters on: the document's `owned_by`. */
  function OwnerFilter(sub: Json): Json {
    Obj(map["term" := Obj(map["owned_by" := sub])])
  }

  /** The body `get_my_points` sends: a bool query filtering on the owner. */
  function OwnedByQuery(sub: Json): Json {
    BoolQuery(map["filter" := OwnerFilter(sub)])
  }

  /** The owner filter is a bool query with only a filter, and the filter
      selects exactly the documents owned by `sub` (a `sub` is a string; an
      object would be read as the long form of a term). */
  lemma OwnerFilterSelectsOwned(sub: Json)
    ensures BoolClause(OwnedByQuery(sub)) == Some(map["filter" := OwnerFilter(sub)])
    ensures !sub.Obj? ==> forall doc: Doc ::
              SatisfiesTerm(OwnerFilter(sub), "owned_by", doc) <==> "owned_by" in doc && doc["owned_by"] == sub
  {
    BoolClauseOfQuery(map["filter" := OwnerFilter(sub)]);
  }

  /** A body sorted on `field` in `order`: `"sort": [{field: {"order": order}}]`. */
  predicate SortsBy(body: Doc, field: string, order: string) {
    "sort" in body && body["sort"] == Arr([Obj(map[field := Obj(map["order" := Str(order)])])])
  }

  /** `get_logs`' defaults: 25 records from offset 0. */
  const DefaultLogSize: Json := Num("25")
  const DefaultLogOffset: Json := Num("0")

  /** The body `get_logs` sends: newest first by timestamp, paged by
      `offset` and `size`, and narrowed by a term on `doc_id` only when a
      point id is given. */
  function LogsQuery(pointId: Json, size: Json, offset: Json): (body: Doc)
    ensures body.Keys == {"sort", "from", "size"} + (if pointId != Null then {"query"} else {})
    ensures SortsBy(body, "timestamp", "desc")
    ensures body["from"] == offset && body["size"] == size
    ensures pointId != Null ==> forall doc: Doc ::
              SatisfiesTerm(body["query"], "doc_id", doc) <==> "doc_id" in doc && doc["doc_id"] == pointId
  {
    var body := map["sort" := Arr([Obj(map["timestamp" := Obj(map["order" := Str("desc")])])]),
                    "from" := offset, "size" := size];
    if pointId != Null then
      var term := Obj(map["value" := pointId]);
      assert term.members.Keys == {"value"};
      assert "doc_id" + ".keyword" == "doc_id.keyword";
      body["query" := Obj(map["term" := Obj(map["doc_id.keyword" := term])])]
    else body
  }

  /** Called with its defaults, `get_logs` asks for the newest 25 records
      of every point. */
  lemma DefaultLogsPage()
    ensures var body := LogsQuery(Null, DefaultLogSize, DefaultLogOffset);
            "query" !in body && body["size"] == Num("25") && body["from"] == Num("0")
  {
  }
}

=== FILE: routes.dfy ===
/** The request handling of koronawirus_backend/points.py that decides what
    reaches the store: the tri-state intent `modify_point` builds from a
    request body, the validation and single-field intent of
    `set_availability`, the optional arguments of `search_points`, and the
    `modify_point` route as its decorators compose it. Flask's request
    object is the JSON body passed in. */
module Routes {
  import opened Values
  import opened Points
  import opened Queries
  import opened Store
  import opened Auth
  import Clock

  /** A call of the client's `modify_point`: the point id, the intent, and
      the `user_sub` the audit record names. */
  datatype ModifyCall = ModifyCall(id: Json, intent: Intent, actor: Json)

  /** The request key each attribute is read from: the attribute's own name,
      except that the category travels as `type`. */
  function RequestKey(a: Attribute): string {
    if a == PointType then "type" else Key(a)
  }

  /** `req.get(key, NotDefined())`: absent is NotDefined, present (null
      included) is set. */
  function Optional(m: map<string, Json>, key: string): (f: Field<Json>)
    ensures f.NotDefined? <==> key !in m
    ensures f.Set? ==> f.value == m[key]
  {
    if key in m then Set(m[key]) else NotDefined
  }

  /** `str(v)` of a present coordinate; NotDefined stays NotDefined. */
  function AsText(f: Field<Json>): (g: Field<Json>)
    ensures g.NotDefined? <==> f.NotDefined?
    ensures g.Set? ==> g.value == Str(PyStr(f.value))
  {
    match f
    case NotDefined => NotDefined
    case Set(v) => Set(Str(PyStr(v)))
  }

  /** The call the `modify_point` route makes: the `id` is required; every
      attribute is NotDefined when its request key is absent and set to the
      request's value when present, an explicit null included; present
      coordinates are passed as their str(). */
  function ModifyRequest(req: Json, userSub: Json): (r: Result<ModifyCall>)
    ensures r.Ok? <==> req.Obj? && "id" in req.members
    ensures !req.Obj? ==> r == Err(TypeError)
    ensures req.Obj? && "id" !in req.members ==> r == Err(KeyError("id"))
    ensures r.Ok? ==> r.value.id == req.members["id"] && r.value.actor == userSub
    ensures r.Ok? ==> forall a | a != Lat && a != Lon ::
              Param(r.value.intent, a).NotDefined? <==> RequestKey(a) !in req.members
    ensures r.Ok? ==> forall a | a != Lat && a != Lon && RequestKey(a) in req.members ::
              Param(r.value.intent, a) == Set(req.members[RequestKey(a)])
    ensures r.Ok? ==> forall a | a == Lat || a == Lon ::
              Param(r.value.intent, a).NotDefined? <==> RequestKey(a) !in req.members
    ensures r.Ok? ==> forall a | (a == Lat || a == Lon) && RequestKey(a) in req.members ::
              Param(r.value.intent, a) == Set(Str(PyStr(req.members[RequestKey(a)])))
  {
    var id :- Lookup(req, "id");
    var m := req.members;
    Ok(ModifyCall(id, Intent(
      name := Optional(m, "name"),
      operator := Optional(m, "operator"),
      address := Optional(m, "address"),
      lat := AsText(Optional(m, "lat")),
      lon := AsText(Optional(m, "lon")),
      pointType := Optional(m, "type"),
      openingHours := Optional(m, "opening_hours"),
      phone := Optional(m, "phone"),
      prepareInstruction := Optional(m, "prepare_instruction"),
      ownedBy := Optional(m, "owned_by"),
      waitingTime := Optional(m, "waiting_time")), userSub))
  }

  /** An explicit null clears a field; leaving the key out leaves it alone. */
  lemma ExplicitNullIsSet(id: Json, sub: Json)
    ensures ModifyRequest(Obj(map["id" := id, "phone" := Null]), sub).value.intent.phone == Set(Null)
    ensures ModifyRequest(Obj(map["id" := id]), sub).value.intent.phone == NotDefined
    ensures ModifyRequest(Obj(map["id" := id, "lat" := Num("52.1")]), sub).value.intent.lat == Set(Str("52.1"))
  {
  }

  /** A point modified through the route keeps string coordinates, because
      the route passes coordinates as their str(). */
  lemma RouteKeepsCoordinatesText(p: Point, req: Json, sub: Json, now: string)
    requires Valid(p) && ModifyRequest(req, sub).Ok?
    ensures Valid(Modify(p, ModifyRequest(req, sub).value.intent, now).0)
  {
    ModifyKeepsValid(p, ModifyRequest(req, sub).value.intent, now);
  }

  /** The availabilities `set_availability` accepts. */
  const Availabilities: seq<Json> := [Str("short"), Str("moderate"), Str("long")]

  /** `set_availability`: the availability is read and validated first (an
      unknown one aborts with 500), then the id; the call changes the
      waiting time only and is made as "anonymous". */
  function SetAvailability(params: Json): (r: Result<ModifyCall>)
    ensures Lookup(params, "availability").Err? ==> r == Err(Lookup(params, "availability").error)
    ensures Lookup(params, "availability").Ok? && Lookup(params, "availability").value !in Availabilities ==>
              r == Err(Aborted(500))
    ensures r.Ok? <==> params.Obj? && "availability" in params.members
                       && params.members["availability"] in Availabilities && "id" in params.members
    ensures r.Ok? ==> r.value.id == params.members["id"] && r.value.actor == Str("anonymous")
    ensures r.Ok? ==> Param(r.value.intent, WaitingTime) == Set(params.members["availability"])
    ensures r.Ok? ==> forall a | a != WaitingTime :: Param(r.value.intent, a) == NotDefined
  {
    var availability :- Lookup(params, "availability");
    if availability !in Availabilities then Err(Aborted(500))
    else
      var id :- Lookup(params, "id");
      Ok(ModifyCall(id, Only(WaitingTime, availability), Str("anonymous")))
  }

  /** The `set_availability` route end to end: validation, then the client's
      `modify_point`. */
  function HandleSetAvailability(s: Store, index: string, params: Json, clock: Clock.Reading,
                                 result: string): (r: Result<(Store, Reply)>)
    ensures SetAvailability(params).Err? ==> r == Err(SetAvailability(params).error)
    ensures SetAvailability(params).Ok? ==>
              r == ModifyPoint(s, index, params.members["id"], Str("anonymous"),
                               Only(WaitingTime, params.members["availability"]), clock, result)
  {
    var call :- SetAvailability(params);
    ModifyPoint(s, index, call.id, call.actor, call.intent, clock, result)
  }

  /** The audit entry an `updated` single-attribute modification appends
      is made by the caller and records at most that attribute. */
  lemma SingleAttributeLogged(s: Store, index: string, id: Json, actor: Json, a: Attribute, v: Json,
                              clock: Clock.Reading)
    requires ModifyPoint(s, index, id, actor, Only(a, v), clock, "updated").Ok?
    ensures var t := ModifyPoint(s, index, id, actor, Only(a, v), clock, "updated").value.0;
            |t.log| == |s.log| + 1 && t.log[|s.log|].record.modifiedBy == actor
            && t.log[|s.log|].record.changes.Keys <= {a}
  {
    var p := FromDict(Hit(id, s.docs[id]), clock.epoch).value;
    OnlyChanges(p, a, v);
  }

  /** An availability report never touches the store's documents other
      than the reported point, and the audit entry it writes records at most
      the waiting time, attributed to "anonymous". */
  lemma AvailabilityTouchesOnlyWaitingTime(s: Store, index: string, params: Json, clock: Clock.Reading)
    requires HandleSetAvailability(s, index, params, clock, "updated").Ok?
    ensures var t := HandleSetAvailability(s, index, params, clock, "updated").value.0;
            t.docs.Keys == s.docs.Keys && |t.log| == |s.log| + 1
            && t.log[|s.log|].record.modifiedBy == Str("anonymous")
            && t.log[|s.log|].record.changes.Keys <= {WaitingTime}
  {
    assert SetAvailability(params).Ok?;
    ModifyPointKeepsIds(s, index, params.members["id"], Str("anonymous"),
                        Only(WaitingTime, params.members["availability"]), clock, "updated");
    SingleAttributeLogged(s, index, params.members["id"], Str("anonymous"), WaitingTime,
                          params.members["availability"], clock);
  }

  /** An unknown availability aborts before the store is read. */
  lemma UnknownAvailabilityAborts(s: Store, index: string, id: Json, clock: Clock.Reading, result: string)
    ensures HandleSetAvailability(s, index, Obj(map["availability" := Str("forever"), "id" := id]),
                                  clock, result) == Err(Aborted(500))
  {
    var params := Obj(map["availability" := Str("forever"), "id" := id]);
    assert Lookup(params, "availability") == Ok(Str("forever"));
    assert Str("forever") !in Availabilities;
    assert SetAvailability(params) == Err(Aborted(500));
  }

  /** The arguments the `search_points` route passes: the phrase is
      required, the category and both corners default to None. */
  datatype SearchArgs = SearchArgs(phrase: Json, pointType: Json, topRight: Json, bottomLeft: Json)

  function SearchRequest(params: Json): (r: Result<SearchArgs>)
    ensures r.Ok? <==> params.Obj? && "phrase" in params.members
    ensures r.Ok? ==> r.value.phrase == params.members["phrase"]
    ensures r.Ok? && "point_type" in params.members ==> r.value.pointType == params.members["point_type"]
    ensures r.Ok? && "point_type" !in params.members ==> r.value.pointType == Null
    ensures r.Ok? && "top_right" in params.members ==> r.value.topRight == params.members["top_right"]
    ensures r.Ok? && "top_right" !in params.members ==> r.value.topRight == Null
    ensures r.Ok? && "bottom_left" in params.members ==> r.value.bottomLeft == params.members["bottom_left"]
    ensures r.Ok? && "bottom_left" !in params.members ==> r.value.bottomLeft == Null
  {
    var phrase :- Lookup(params, "phrase");
    var m := params.members;
    Ok(SearchArgs(phrase, GetOr(m, "point_type", Null), GetOr(m, "top_right", Null), GetOr(m, "bottom_left", Null)))
  }

  /** A search with only a phrase sends the text match alone, with no
      filter list. */
  lemma PhraseOnlySearchHasNoFilter(phrase: Json)
    ensures var args := SearchRequest(Obj(map["phrase" := phrase])).value;
            SearchClause(args.phrase, args.pointType, args.topRight, args.bottomLeft)
            == Ok(map["must" := Arr([TextMatch(phrase)])])
  {
  }

  /** The `modify_point` route as its decorators compose it, after
      `requires_auth` has produced `user`: `check_rights`, then the intent,
      then the client's `modify_point` under the user's `sub`. */
  function ModifyRoute(user: Doc, req: Json, s: Store, index: string, clock: Clock.Reading,
                       result: string): (r: Result<(Store, Reply)>)
    ensures CheckRights(user, req, s, clock.epoch).Err? ==> r == Err(CheckRights(user, req, s, clock.epoch).error)
    ensures r.Ok? ==> req.Obj? && "id" in req.members && "sub" in user
    ensures r.Ok? ==> IsModerator(user) || Owns(s, req.members["id"], user["sub"])
    ensures r.Ok? ==> r.value.0.docs.Keys == s.docs.Keys
    ensures CheckRights(user, req, s, clock.epoch).Ok? && "sub" in user && ModifyRequest(req, user["sub"]).Ok? ==>
              r == ModifyPoint(s, index, req.members["id"], user["sub"],
                               ModifyRequest(req, user["sub"]).value.intent, clock, result)
  {
    var _ :- CheckRights(user, req, s, clock.epoch);
    var sub :- Member(user, "sub");
    var call :- ModifyRequest(req, sub);
    ModifyPoint(s, index, call.id, call.actor, call.intent, clock, result)
  }

  /** Whoever is neither a moderator nor the point's owner changes nothing:
      the route fails before the store is written. */
  lemma StrangersCannotModify(user: Doc, req: Json, s: Store, index: string, clock: Clock.Reading,
                              result: string)
    requires !IsModerator(user)
    requires !(req.Obj? && "id" in req.members && "sub" in user && Owns(s, req.members["id"], user["sub"]))
    ensures ModifyRoute(user, req, s, index, clock, result).Err?
  {
  }

  /** The owner of a stored, readable point gets through the route: the
      modification is made. */
  lemma OwnerCanModify(user: Doc, req: Json, s: Store, index: string, clock: Clock.Reading, result: string)
    requires "sub" in user && req.Obj? && "id" in req.members
    requires Owns(s, req.members["id"], user["sub"])
    requires Decodable(Hit(req.members["id"], s.docs[req.members["id"]]))
    ensures ModifyRoute(user, req, s, index, clock, result).Ok?
  {
    assert CheckRights(user, req, s, clock.epoch).Ok?;
  }

  /** Whoever adds a point may modify it afterwards: `check_rights` passes
      for the adder on the id the engine assigned. */
  lemma AdderMayModify(user: Doc, s: Store, name: Json, operator: Json, address: Json, openingHours: Json,
                       lat: Json, lon: Json, pointType: Json, phone: Json, prepareInstruction: Json,
                       waitingTime: Json, clock: Clock.Reading, response: IndexResponse, now: string)
    requires "sub" in user
    ensures var t := AddPoint(s, name, operator, address, openingHours, lat, lon, pointType, phone,
                              prepareInstruction, waitingTime, user["sub"], clock, response).value.0;
            CheckRights(user, Obj(map["id" := response.id]), t, now).Ok?
  {
    var p := NewPoint(name, operator, address, openingHours, lat, lon, pointType, phone,
                      prepareInstruction, waitingTime, user["sub"], clock.epoch);
    IndexDecodable(p, response.id, false);
  }

  /** An owner who is not a moderator can hand the point to someone else:
      the route passes `owned_by` through and `check_rights` only checks
      the current owner. */
  lemma OwnerCanReassignOwner(user: Doc, id: Json, newOwner: Json, s: Store, index: string,
                              clock: Clock.Reading, result: string)
    requires "sub" in user && Owns(s, id, user["sub"]) && Decodable(Hit(id, s.docs[id]))
    ensures var r := ModifyRoute(user, Obj(map["id" := id, "owned_by" := newOwner]), s, index, clock, result);
            r.Ok? && r.value.0.docs[id]["owned_by"] == newOwner
  {
    var req := Obj(map["id" := id, "owned_by" := newOwner]);
    OwnerCanModify(user, req, s, index, clock, result);
    var i := ModifyRequest(req, user["sub"]).value.intent;
    assert Param(i, OwnedBy) == Set(newOwner);
    assert Attr(Modified(s, id, i, clock.epoch), OwnedBy) == newOwner;
  }
}

=== FILE: store.dfy ===
/** The protocols of the `Elasticsearch` client in
    koronawirus_backend/elastic.py, run against an abstract engine: the point
    index is a map from id to document and the audit log a sequence of
    entries, each tagged with the monthly index it went to. What the engine
    reports for a write (`created`, `updated`, ...) and what a search returns
    are inputs. */
module Store {
  import opened Values
  import opened Points
  import opened Queries
  import Clock

  /** One audit record as `save_log` writes it. */
  datatype AuditRecord = AuditRecord(modifiedBy: Json, docId: Json, changes: Changes, timestamp: string, name: Json)

  /** The document `save_log` indexes for a record. */
  function AuditDoc(a: AuditRecord): Doc {
    map["modified_by" := a.modifiedBy, "doc_id" := a.docId, "changes" := ChangesJson(a.changes),
        "timestamp" := Str(a.timestamp), "name" := a.name]
  }

  /** An audit record together with the log index it was written to. */
  datatype LogEntry = LogEntry(index: string, record: AuditRecord)

  /** The engine as the client sees it. */
  datatype Store = Store(docs: map<Json, Doc>, log: seq<LogEntry>)

  /** What `es.index` answers: the document's id and the `result` status. */
  datatype IndexResponse = IndexResponse(id: Json, result: string)

  /** What `modify_point` and `add_point` return: a point view, or the raw
      engine answer when the write did not report the expected status. */
  datatype Reply = View(doc: Doc) | Raw(response: IndexResponse)

  /** `get_point`: the public view with id; NotFound for an unknown id. */
  function GetPoint(s: Store, id: Json, now: string): (r: Result<Doc>)
    ensures r.Ok? <==> id in s.docs && Decodable(Hit(id, s.docs[id]))
    ensures id !in s.docs ==> r == Err(NotFound)
    ensures r.Ok? ==> r.value.Keys == PublicKeys + {"id"} && r.value["id"] == id
  {
    if id !in s.docs then Err(NotFound)
    else
      var p :- FromDict(Hit(id, s.docs[id]), now);
      Ok(ToDict(p, true))
  }

  /** `get_full_point`: the privileged view with id, whose `owned_by` is the
      stored document's. */
  function GetFullPoint(s: Store, id: Json, now: string): (r: Result<Doc>)
    ensures r.Ok? <==> id in s.docs && Decodable(Hit(id, s.docs[id]))
    ensures id !in s.docs ==> r == Err(NotFound)
    ensures r.Ok? ==> "owned_by" in r.value && r.value["owned_by"] == s.docs[id]["owned_by"]
    ensures r.Ok? ==> r.value.Keys == PublicKeys + {"id", "owned_by"} && r.value["id"] == id
  {
    if id !in s.docs then Err(NotFound)
    else
      var p :- FromDict(Hit(id, s.docs[id]), now);
      Ok(ToIndex(p, true))
  }

  /** Reading a stored point back: when the document under `id` is the
      privileged view of a constructed point, `get_point` answers that
      point's public view with `id` as its id. */
  lemma StoredPointRead(s: Store, id: Json, p: Point, now: string)
    requires Valid(p) && id in s.docs && s.docs[id] == ToIndex(p, false)
    ensures GetPoint(s, id, now) == Ok(ToDict(p.(docId := id), true))
  {
    RoundTrip(p, id, false, now);
  }

  /** ... and `get_full_point` answers its privileged view with `id`. */
  lemma StoredFullPointRead(s: Store, id: Json, p: Point, now: string)
    requires Valid(p) && id in s.docs && s.docs[id] == ToIndex(p, false)
    ensures GetFullPoint(s, id, now) == Ok(ToIndex(p.(docId := id), true))
  {
    RoundTrip(p, id, false, now);
  }

  /** Decoding a list of hits and turning each into its public view with id,
      as `search_points`, `get_points` and `get_my_points` do. The first hit
      that cannot be decoded fails the whole list. */
  function PublicViews(hits: seq<Json>, now: string): (r: Result<seq<Doc>>)
    ensures r.Ok? <==> forall h | h in hits :: Decodable(h)
    ensures r.Ok? ==> |r.value| == |hits|
    ensures r.Ok? ==> forall k | 0 <= k < |hits| :: r.value[k] == ToDict(FromDict(hits[k], now).value, true)
    ensures r.Ok? ==> forall k | 0 <= k < |hits| ::
              Decodable(hits[k]) && "owned_by" !in r.value[k] && "id" in r.value[k] && r.value[k]["id"] == hits[k].members["_id"]
  {
    if hits == [] then Ok([])
    else
      var p :- FromDict(hits[0], now);
      var rest :- PublicViews(hits[1..], now);
      Ok([ToDict(p, true)] + rest)
  }

  /** `{'points': views}`. */
  function PointsReply(views: seq<Doc>): (reply: Json)
    ensures reply.Obj? && reply.members.Keys == {"points"} && reply.members["points"].Arr?
    ensures |reply.members["points"].items| == |views|
    ensures forall k | 0 <= k < |views| :: reply.members["points"].items[k] == Obj(views[k])
  {
    Obj(map["points" := Arr(seq(|views|, k requires 0 <= k < |views| => Obj(views[k])))])
  }

  /** `reply` is `{"points": [...]}` with, for each hit in order, the public
      view of the point it decodes to: the hit's `_id` as `id`, and no
      `owned_by`. */
  predicate ListsHits(reply: Json, hits: seq<Json>, now: string) {
    && reply.Obj? && reply.members.Keys == {"points"} && reply.members["points"].Arr?
    && |reply.members["points"].items| == |hits|
    && forall k | 0 <= k < |hits| ::
         && Decodable(hits[k])
         && reply.members["points"].items[k] == Obj(ToDict(FromDict(hits[k], now).value, true))
         && "owned_by" !in ToDict(FromDict(hits[k], now).value, true)
         && ToDict(FromDict(hits[k], now).value, true)["id"] == hits[k].members["_id"]
  }

  /** The reply built from the views of `hits` lists those hits. */
  lemma ReplyListsHits(hits: seq<Json>, now: string)
    requires PublicViews(hits, now).Ok?
    ensures ListsHits(PointsReply(PublicViews(hits, now).value), hits, now)
  {
    var views := PublicViews(hits, now).value;
    forall k | 0 <= k < |hits|
      ensures Decodable(hits[k])
    {
      assert hits[k] in hits;
    }
  }

  /** `search_points`: the query sent is a bool query whose `must` is the
      text match and whose `filter` holds the category term and the box, as
      given; the reply lists the hits the engine returns for it. */
  function SearchPoints(phrase: Json, pointType: Json, topRight: Json, bottomLeft: Json,
                        hits: seq<Json>, now: string): (r: Result<(Json, Json)>)
    ensures r.Ok? <==> SearchClause(phrase, pointType, topRight, bottomLeft).Ok?
                       && PublicViews(hits, now).Ok?
    ensures r.Ok? ==> BoolClause(r.value.0).Some?
    ensures r.Ok? ==>
              var c := BoolClause(r.value.0).value;
              var box := if topRight != Null && bottomLeft != Null then Some(Corners(topRight, bottomLeft).value) else None;
              && "must" in c && c["must"] == Arr([TextMatch(phrase)])
              && ("filter" in c <==> ExpectedFilters(pointType, box) != [])
              && ("filter" in c ==> c["filter"] == Arr(ExpectedFilters(pointType, box)))
    ensures r.Ok? ==> ListsHits(r.value.1, hits, now)
  {
    var clause :- SearchClause(phrase, pointType, topRight, bottomLeft);
    var views :- PublicViews(hits, now);
    BoolClauseOfQuery(clause);
    ReplyListsHits(hits, now);
    Ok((BoolQuery(clause), PointsReply(views)))
  }

  /** `get_points`: the box the query filters on, top-left from `top_right`'s
      latitude and `bottom_left`'s longitude, bottom-right from the other
      two; and the reply listing the hits. */
  function GetPoints(topRight: Json, bottomLeft: Json, hits: seq<Json>, now: string): (r: Result<(Box, Json)>)
    ensures r.Ok? <==> HasLatLon(topRight) && HasLatLon(bottomLeft) && PublicViews(hits, now).Ok?
    ensures r.Ok? ==> r.value.0.topLeft == Corner(PyStr(topRight.members["lat"]), PyStr(bottomLeft.members["lon"]))
    ensures r.Ok? ==> r.value.0.bottomRight == Corner(PyStr(bottomLeft.members["lat"]), PyStr(topRight.members["lon"]))
    ensures r.Ok? ==> ListsHits(r.value.1, hits, now)
  {
    var box :- Corners(topRight, bottomLeft);
    var views :- PublicViews(hits, now);
    ReplyListsHits(hits, now);
    Ok((box, PointsReply(views)))
  }

  /** `get_my_points`: a bool query whose only filter selects the documents
      owned by `sub`, and the reply listing the hits. */
  function GetMyPoints(sub: Json, hits: seq<Json>, now: string): (r: Result<(Json, Json)>)
    ensures r.Ok? <==> PublicViews(hits, now).Ok?
    ensures r.Ok? ==> BoolClause(r.value.0).Some? && BoolClause(r.value.0).value.Keys == {"filter"}
    ensures r.Ok? && !sub.Obj? ==>
              forall doc: Doc :: SatisfiesTerm(BoolClause(r.value.0).value["filter"], "owned_by", doc)
                                 <==> "owned_by" in doc && doc["owned_by"] == sub
    ensures r.Ok? ==> ListsHits(r.value.1, hits, now)
  {
    var views :- PublicViews(hits, now);
    OwnerFilterSelectsOwned(sub);
    ReplyListsHits(hits, now);
    Ok((OwnedByQuery(sub), PointsReply(views)))
  }

  /** `get_logs`: the index pattern and body it searches with, and
      `{"logs": hits.hits, "total": hits.total.value}` of the answer. */
  function GetLogs(index: string, pointId: Json, size: Json, offset: Json, response: Json): (r: Result<(string, Doc, Json)>)
    ensures r.Ok? ==> r.value.0 == Clock.LogIndexPattern(index) && r.value.1 == LogsQuery(pointId, size, offset)
    ensures r.Ok? <==> Lookup(response, "hits").Ok? && Lookup(Lookup(response, "hits").value, "hits").Ok?
                       && Lookup(Lookup(response, "hits").value, "total").Ok?
                       && Lookup(Lookup(Lookup(response, "hits").value, "total").value, "value").Ok?
    ensures r.Ok? ==>
              var hits := response.members["hits"].members;
              r.value.2 == Obj(map["logs" := hits["hits"], "total" := hits["total"].members["value"]])
  {
    var hits :- Lookup(response, "hits");
    var logs :- Lookup(hits, "hits");
    var total :- Lookup(hits, "total");
    var count :- Lookup(total, "value");
    Ok((Clock.LogIndexPattern(index), LogsQuery(pointId, size, offset),
        Obj(map["logs" := logs, "total" := count])))
  }

  /** `save_log`: append the record for one change to the month's log index. */
  function SaveLog(s: Store, index: string, userSub: Json, docId: Json, name: Json, changed: Changes,
                   clock: Clock.Reading): (t: Store)
    ensures t.docs == s.docs
    ensures |t.log| == |s.log| + 1 && t.log[..|s.log|] == s.log
    ensures t.log[|s.log|].index == Clock.LogIndexName(index, clock.local)
    ensures t.log[|s.log|].record == AuditRecord(userSub, docId, changed, Clock.LogTimestamp(clock.utc), name)
  {
    var record := AuditRecord(userSub, docId, changed, Clock.LogTimestamp(clock.utc), name);
    s.(log := s.log + [LogEntry(Clock.LogIndexName(index, clock.local), record)])
  }

  /** The point `modify_point` writes back: the stored one after the intent. */
  function Modified(s: Store, id: Json, i: Intent, now: string): Point
    requires id in s.docs && Decodable(Hit(id, s.docs[id]))
  {
    Modify(FromDict(Hit(id, s.docs[id]), now).value, i, now).0
  }

  /** The changes `modify_point` logs. */
  function ModifiedChanges(s: Store, id: Json, i: Intent, now: string): Changes
    requires id in s.docs && Decodable(Hit(id, s.docs[id]))
  {
    Modify(FromDict(Hit(id, s.docs[id]), now).value, i, now).1
  }

  /** `modify_point`: read, decode, modify, and write the privileged view
      back unconditionally. Only when the engine reports `updated` is one
      audit entry appended, carrying exactly `modify`'s changes, and the
      refreshed full view returned; otherwise no entry is appended and the
      raw answer comes back. */
  function ModifyPoint(s: Store, index: string, id: Json, userSub: Json, i: Intent,
                       clock: Clock.Reading, result: string): (r: Result<(Store, Reply)>)
    ensures r.Ok? <==> id in s.docs && Decodable(Hit(id, s.docs[id]))
    ensures id !in s.docs ==> r == Err(NotFound)
    ensures r.Ok? ==> r.value.0.docs == s.docs[id := ToIndex(Modified(s, id, i, clock.epoch), false)]
    ensures r.Ok? && result == "updated" ==>
              && |r.value.0.log| == |s.log| + 1 && r.value.0.log[..|s.log|] == s.log
              && r.value.0.log[|s.log|]
                 == LogEntry(Clock.LogIndexName(index, clock.local),
                             AuditRecord(userSub, id, ModifiedChanges(s, id, i, clock.epoch),
                                         Clock.LogTimestamp(clock.utc), Modified(s, id, i, clock.epoch).name))
              && r.value.1.View?
    ensures r.Ok? && result != "updated" ==>
              r.value.0.log == s.log && r.value.1 == Raw(IndexResponse(id, result))
  {
    if id !in s.docs then Err(NotFound)
    else
      var point :- FromDict(Hit(id, s.docs[id]), clock.epoch);
      var (updated, changes) := Modify(point, i, clock.epoch);
      var written := s.(docs := s.docs[id := ToIndex(updated, false)]);
      if result == "updated" then
        var logged := SaveLog(written, index, userSub, id, updated.name, changes, clock);
        DecodeIndexed(updated, id, false, clock.epoch);
        match GetFullPoint(logged, id, clock.epoch)
        case Ok(full) => Ok((logged, View(full)))
        case Err(e) => Err(e)
      else
        Ok((written, Raw(IndexResponse(id, result))))
  }

  /** `modify_point` neither adds nor removes a stored point. */
  lemma ModifyPointKeepsIds(s: Store, index: string, id: Json, userSub: Json, i: Intent,
                            clock: Clock.Reading, result: string)
    requires ModifyPoint(s, index, id, userSub, i, clock, result).Ok?
    ensures ModifyPoint(s, index, id, userSub, i, clock, result).value.0.docs.Keys == s.docs.Keys
  {
  }

  /** When the intent keeps the coordinates strings, the view `modify_point`
      returns after an `updated` write is the modified point's privileged
      view with its id. */
  lemma ModifyPointReturnsWrittenPoint(s: Store, index: string, id: Json, userSub: Json, i: Intent,
                                       clock: Clock.Reading)
    requires id in s.docs && Decodable(Hit(id, s.docs[id]))
    requires i.lat.NotDefined? || i.lat.value.Str?
    requires i.lon.NotDefined? || i.lon.value.Str?
    ensures ModifyPoint(s, index, id, userSub, i, clock, "updated").value.1
         == View(ToIndex(Modified(s, id, i, clock.epoch).(docId := id), true))
  {
    var p := FromDict(Hit(id, s.docs[id]), clock.epoch).value;
    ModifyKeepsValid(p, i, clock.epoch);
    RoundTrip(Modified(s, id, i, clock.epoch), id, false, clock.epoch);
    RoundTrip(Modified(s, id, i, clock.epoch), id, true, clock.epoch);
  }

  /** `add_point`: build a new point owned by `userSub`, index its privileged
      view under the id the engine assigns, and return the public view only
      when the engine reports `created`. No audit entry is written. */
  function AddPoint(s: Store, name: Json, operator: Json, address: Json, openingHours: Json, lat: Json,
                    lon: Json, pointType: Json, phone: Json, prepareInstruction: Json, waitingTime: Json,
                    userSub: Json, clock: Clock.Reading, response: IndexResponse): (r: Result<(Store, Reply)>)
    ensures r.Ok?
    ensures r.value.0.log == s.log
    ensures var p := NewPoint(name, operator, address, openingHours, lat, lon, pointType, phone,
                              prepareInstruction, waitingTime, userSub, clock.epoch);
            && response.id in r.value.0.docs && r.value.0.docs[response.id] == ToIndex(p, false)
            && (response.result == "created" ==> r.value.1 == View(ToDict(p.(docId := response.id), true)))
    ensures r.value.0.docs - {response.id} == s.docs - {response.id}
    ensures response.result == "created" <==> r.value.1.View?
    ensures response.result != "created" ==> r.value.1 == Raw(response)
  {
    var point := NewPoint(name, operator, address, openingHours, lat, lon, pointType, phone,
                          prepareInstruction, waitingTime, userSub, clock.epoch);
    var written := s.(docs := s.docs[response.id := ToIndex(point, false)]);
    if response.result == "created" then
      StoredPointRead(written, response.id, point, clock.epoch);
      match GetPoint(written, response.id, clock.epoch)
      case Ok(view) => Ok((written, View(view)))
      case Err(e) => Err(e)
    else
      Ok((written, Raw(response)))
  }

  /** A point added by `userSub` is stored as theirs: its document carries
      them as `owned_by`, so the filter `get_my_points` sends for them
      selects it. */
  lemma AddedPointIsMine(s: Store, name: Json, operator: Json, address: Json, openingHours: Json, lat: Json,
                         lon: Json, pointType: Json, phone: Json, prepareInstruction: Json, waitingTime: Json,
                         userSub: Json, clock: Clock.Reading, response: IndexResponse)
    requires !userSub.Obj?
    ensures var t := AddPoint(s, name, operator, address, openingHours, lat, lon, pointType, phone,
                              prepareInstruction, waitingTime, userSub, clock, response).value.0;
            && "owned_by" in t.docs[response.id] && t.docs[response.id]["owned_by"] == userSub
            && SatisfiesTerm(OwnerFilter(userSub), "owned_by", t.docs[response.id])
  {
    OwnerFilterSelectsOwned(userSub);
  }

  /** `es.delete`: removes a stored document and answers with the `result`
      status the engine reports; an unknown id makes the client raise
      NotFound. */
  function EngineDelete(s: Store, id: Json, result: string): Result<(Store, string)> {
    if id in s.docs then Ok((s.(docs := s.docs - {id}), result)) else Err(NotFound)
  }

  /** `delete_point`: succeeds only when the engine reports `deleted`, and
      raises "Can't delete point" for any other status. */
  function DeletePoint(s: Store, id: Json, result: string): (r: Result<Store>)
    ensures r.Ok? <==> id in s.docs && result == "deleted"
    ensures id !in s.docs ==> r == Err(NotFound)
    ensures id in s.docs && result != "deleted" ==> r == Err(CannotDelete)
    ensures r.Ok? ==> r.value.docs == s.docs - {id} && r.value.log == s.log
  {
    var (t, status) :- EngineDelete(s, id, result);
    if status == "deleted" then Ok(t) else Err(CannotDelete)
  }

  /** Deleting is not idempotent: deleting the same id again fails. */
  lemma DeleteTwiceFails(s: Store, id: Json, result: string, again: string)
    requires DeletePoint(s, id, result).Ok?
    ensures DeletePoint(DeletePoint(s, id, result).value, id, again) == Err(NotFound)
  {
  }

  /** `get_logs` for a point selects exactly the audit documents written for
      it, and sorts on the field `save_log` fills with the record's
      timestamp. */
  lemma LogsQueryFindsPointRecords(pointId: Json, size: Json, offset: Json, a: AuditRecord)
    requires pointId != Null
    ensures SatisfiesTerm(LogsQuery(pointId, size, offset)["query"], "doc_id", AuditDoc(a)) <==> a.docId == pointId
    ensures SortsBy(LogsQuery(pointId, size, offset), "timestamp", "desc")
    ensures "timestamp" in AuditDoc(a) && AuditDoc(a)["timestamp"] == Str(a.timestamp)
  {
    var doc := AuditDoc(a);
    assert "doc_id" in doc && doc["doc_id"] == a.docId;
  }

  /** The audit entry an `updated` modification writes is one `get_logs` for
      that point finds: it goes to an index the log pattern matches, its
      document names the point, and its timestamp is the UTC reading. */
  lemma ModificationLogFound(s: Store, index: string, id: Json, userSub: Json, i: Intent,
                             clock: Clock.Reading, size: Json, offset: Json)
    requires id != Null
    requires ModifyPoint(s, index, id, userSub, i, clock, "updated").Ok?
    ensures var e := ModifyPoint(s, index, id, userSub, i, clock, "updated").value.0.log[|s.log|];
            && Clock.MatchesPattern(Clock.LogIndexPattern(index), e.index)
            && SatisfiesTerm(LogsQuery(id, size, offset)["query"], "doc_id", AuditDoc(e.record))
            && AuditDoc(e.record)["timestamp"] == Str(Clock.LogTimestamp(clock.utc))
  {
    var e := ModifyPoint(s, index, id, userSub, i, clock, "updated").value.0.log[|s.log|];
    Clock.LogIndicesFound(index, clock.local);
    LogsQueryFindsPointRecords(id, size, offset, e.record);
  }

  /** A modification that changes nothing still appends an audit entry,
      with an empty changes map, whenever the engine reports `updated`. */
  lemma NoOpUpdateStillLogged(s: Store, index: string, id: Json, userSub: Json, i: Intent, clock: Clock.Reading)
    requires id in s.docs && Decodable(Hit(id, s.docs[id]))
    requires forall a :: Param(i, a).Set? ==> Param(i, a).value == Attr(FromDict(Hit(id, s.docs[id]), clock.epoch).value, a)
    ensures var t := ModifyPoint(s, index, id, userSub, i, clock, "updated").value.0;
            |t.log| == |s.log| + 1 && t.log[|s.log|].record.changes == map[]
  {
    NoOpModify(FromDict(Hit(id, s.docs[id]), clock.epoch).value, i, clock.epoch);
  }
}

=== FILE: values.dfy ===
/** Python values as the backend sees them after JSON decoding, the failures
    of the dictionary operations it performs on them, and Python's str(). */
module Values {

  /** A JSON value. `Null` is Python's None. */
  datatype Json =
    | Null
    | Bool(b: bool)
    | Num(text: string)               // a number, carried as the text str() gives for it
    | Str(s: string)
    | Arr(items: seq<Json>)
    | Obj(members: map<string, Json>)

  /** A Python dict of JSON values (a document, a request body, a query clause). */
  type Doc = map<string, Json>

  /** The exceptions (and HTTP aborts) the modelled code can end in. */
  datatype Error =
    | KeyError(key: string)           // d[key] on a dict without that key
    | TypeError                       // d[key] on a value that is not a dict
    | IndexError                      // parts[0] on an empty list
    | AttributeError                  // .append on a value that is not a list
    | NotFound                        // the engine has no document with that id
    | CannotDelete                    // delete_point: the engine did not report 'deleted'
    | NotAllowed                      // the authorization decorators' Exception("Not allowed")
    | Aborted(status: nat)            // flask's abort(status)
    | AuthError(code: string, description: string, status: nat)

  datatype Option<+T> = None | Some(value: T)

  datatype Result<+T> = Ok(value: T) | Err(error: Error) {
    predicate IsFailure() {
      Err?
    }

    function PropagateFailure<U>(): Result<U>
      requires Err?
    {
      Err(error)
    }

    function Extract(): T
      requires Ok?
    {
      value
    }
  }

  /** `j[key]`: the member of a dict, KeyError when it is missing, TypeError
      when `j` is not a dict at all. */
  function Lookup(j: Json, key: string): Result<Json> {
    match j
    case Obj(m) => if key in m then Ok(m[key]) else Err(KeyError(key))
    case _ => Err(TypeError)
  }

  /** `d[key]` on a dict known to be one. */
  function Member(d: Doc, key: string): Result<Json> {
    if key in d then Ok(d[key]) else Err(KeyError(key))
  }

  /** `d.get(key, default)`. */
  function GetOr(d: Doc, key: string, default: Json): Json {
    if key in d then d[key] else default
  }

  /** Python's str() of a scalar JSON value. */
  function PyStr(v: Json): string {
    match v
    case Null => "None"
    case Bool(b) => if b then "True" else "False"
    case Num(t) => t
    case Str(s) => s
    case Arr(_) => ""
    case Obj(_) => ""
  }
}
